=== FILE: README.md ===
# Room designer: a Dafny model of its interaction core

This project models the interaction logic of a React / three.js room
designer. Furniture items are placed in a rectangular room, dragged over the
floor inside the walls, rotated, recoloured and resized. They are listed in a
side panel with per-item commands. An "Inspire" questionnaire proposes
furniture, and a few toolbars edit a keyed shared state. Rendering, ray
casting and animation are not modelled. What remains is the state each
handler reads and writes, the numbers it computes and the failures it can
hit.

Modules, one per component of the program:

- `Wrappers`, `Types`: the `Option` type; positions, the furniture record, the
  menu state, the first-index lookup by id and the subsequence relation.
- `FurnitureOptions`: the colour, size and length tables (`utils/furnitureOptions.ts`).
- `Boundary`, `DragController`: footprint, traversal box, clamping and the
  pointer handling of a furniture item (`src/components/FurnitureItem.tsx`).
- `AppContext`: the provider's initial state, the seed furniture and the
  measurement toggle (`src/context/AppContext.tsx`).
- `ModelLoader`: item lookup, geometry normalisation, quick-click badge
  toggling and the edit click (`src/models/ModelLoader.tsx`).
- `InspireWizard`: the questionnaire (`src/components/InspireDialog.tsx`).
- `FloatingMenu`, `FloatingNavigation`: the side panel and the bottom bar.
- `CouchPage`: the single-couch page and its couch, which appears in
  `src/components/new_stable/3d-scene-with-nav.tsx`,
  `src/components/separate_files/room-designer.tsx` and
  `src/components/separate_files/Couch.tsx`.
- `OutlinePage`: the outline demo page (`src/components/outline/3d-scene-with-nav.tsx`).
- `SharedState`, `Navbar`, `DesktopNavbar`, `Buttons`: the keyed shared state
  and the toolbars that edit it (`src/components/Navbar.tsx`,
  `src/components/mobile/Navbar.tsx`, `src/components/desktop/Navbar.tsx`,
  `src/reactButtons/Buttons.tsx`).

Modelling conventions:

- JavaScript numbers are exact reals.
- Angles are whole quarter turns: the value `q` stands for `q * pi / 2`. The
  rotate commands only ever add `pi / 2` to a start value of 0, so every
  angle the program produces has this form.
- The toolbars' wrap `(r + pi + pi/2) % (2 pi) - pi` is computed on quarter
  turns with JavaScript's truncating remainder (`SharedState.JsRemFullTurn`),
  not Dafny's Euclidean one.
- A JavaScript object keyed by strings is a `map`. Reading an absent key
  gives `undefined`, which is modelled as `None`.
- A handler that would throw a TypeError returns `None`. The model does not
  use a precondition to exclude that case.
- Setters that mutate the previous state in place return an
  `Update(next, previousAfter)`, so the aliasing is visible.
- Clock readings, uuids and ray hits are parameters.
- A mesh geometry is known only by its bounding-sphere radius. Uniform
  scaling by `f` multiplies that radius by `f`.

Where the code differs from what its design describes, the model follows
the code:

- The drag box uses the item's unrotated footprint.
- `getSizeScale` has no "xl" case, so xl renders at scale 1, smaller than
  "large". The outline page uses 1.4 for xl.
- The normaliser ignores `originalSize` and scales the shared geometry in
  place.
- A quick click is at most 200 ms (ModelLoader). The couch compares the
  pointer-up's `delta` with 2 px, but @react-three/fiber sets `delta` only on
  click-type events and leaves 0 on a pointer-up, so every release of the
  couch, a drag's included, counts as a click (see Findings).
- The pages' rotate adds `pi / 2` without bound. The toolbars wrap into
  `[-pi, pi)`.
- The bottom-bar buttons hide the badge but do not close the side panel.
- Every press and release on the canvas also ends in a DOM click on the
  canvas wrapper, whose handler closes the side panel and collapses the
  accordion. So a click that misses every object closes the panel and hides
  the badge, and a click on the couch does not leave the panel open (see
  Findings).
- Confirming a removal always collapses the accordion.
- The questionnaire is mounted at step 0. Its intro overlay is drawn on
  step 1 whatever `isOpen` says, and every dismissal sets step 1, so the
  overlay stays up after the dialog is closed (see Findings).
- Many string literals of `src/components/new_stable/3d-scene-with-nav.tsx`
  and `src/components/outline/3d-scene-with-nav.tsx` carry an extra pair of
  quotes inside the string (`"'open'"`, `"'medium'"`, `"'#8B4513'"`). Only
  the menu words are used consistently. The start size and colour match no
  table key, radio, menu item or swatch, and the quoted style values and
  event name are not valid. `CouchPage` follows the plain words of
  `src/components/separate_files/room-designer.tsx`. `OutlinePage.Initial`
  keeps the quoted start values as written. The couch badge keeps its quoted
  pointer-events values as written (see Findings).

## Model

| member | source | states |
|---|---|---|
| `Types.FindIndex` | src/components/FloatingMenu.tsx:118 | -1 exactly when no item has the id; otherwise the index of the first item with that id |
| `Types.FindIndexOfUniqueId` | src/components/FloatingMenu.tsx:118 | with unique ids, looking up an item's id returns that item's own index |
| `Types.SubsequenceOfTail` | src/components/InspireDialog.tsx:101-113 | a subsequence of the tail is one of the whole, with or without the head |
| `Types.SubsequenceDropHead` | src/components/InspireDialog.tsx:101-113 | dropping a subsequence's head keeps it a subsequence |
| `FurnitureOptions.SizeValues` | utils/furnitureOptions.ts:9-14 | the size words in the order the panel lists them |
| `FurnitureOptions.LengthsIncreaseByConstantStep` | utils/furnitureOptions.ts:16-21 | every listed size has a length; lengths start at 2.4 and grow by 0.6 per size |
| `FurnitureOptions.SizeOptionsMatchLengthTable` | utils/furnitureOptions.ts:9-21 | a size word has a length exactly when the panel offers it |
| `FurnitureOptions.OptionValuesDistinct` | utils/furnitureOptions.ts:3-14 | no two swatches store the same colour and no two sizes share a word |
| `Boundary.FootprintOf` | src/components/FurnitureItem.tsx:61-63 | a table is 1.2 x 0.8 whatever its size; any other kind is its size's length by 1.5, or None when the size has no length; footprints are positive |
| `Boundary.BoundsFor` | src/components/FurnitureItem.tsx:65-77 | the box is symmetric about the origin, non-empty on an axis exactly when the item fits on it, and its edge plus half the item reaches the wall |
| `Boundary.Clamp` | src/components/FurnitureItem.tsx:117-118 | the result lies in a non-empty box; a value inside is kept; below the box, or in an empty box, the lower bound wins |
| `Boundary.ClampIdempotent` | src/components/FurnitureItem.tsx:117-118 | clamping twice equals clamping once |
| `Boundary.ClampIsMonotone` | src/components/FurnitureItem.tsx:117-118 | clamping preserves the order of two positions |
| `Boundary.ClampedItemStaysInsideWalls` | src/components/FurnitureItem.tsx:65-77 | an item that fits, once clamped, has its whole footprint between the walls on both axes |
| `Boundary.TableIgnoresSize` | src/components/FurnitureItem.tsx:61-63 | a table's footprint does not depend on its size |
| `Boundary.LargerCouchNarrowerRange` | src/components/FurnitureItem.tsx:61-77 | a longer couch has a narrower x range and the same z range |
| `Boundary.TableInTenByTenRoom` | src/components/FurnitureItem.tsx:61-77 | a table in a 10 x 10 room moves over x in [-4.4, 4.4] and z in [-4.6, 4.6] |
| `DragController.PointerDown` | src/components/FurnitureItem.tsx:85-98 | dragging starts, the parent hears one drag start, and hit point plus offset is the item's position |
| `DragController.PointerUp` | src/components/FurnitureItem.tsx:100-107 | dragging stops, the parent hears one drag end, nothing else changes |
| `DragController.PointerOut` | src/components/FurnitureItem.tsx:226-229 | dragging stops silently, nothing else changes |
| `DragController.PointerMove` | src/components/FurnitureItem.tsx:109-130 | idle moves do nothing; a drag shows and reports the same position, clamped on x and z, with y at 0, and inside any non-empty box |
| `DragController.PointerMissed` | src/components/FurnitureItem.tsx:132-134 | the item's own miss handler only hides the badge |
| `DragController.BadgeStyleFor` | src/components/FurnitureItem.tsx:237-241 | the badge is visible and clickable exactly when no dialog is open, otherwise hidden behind the page |
| `DragController.BadgeClick` | src/components/FurnitureItem.tsx:237-249 | a click on the badge reaches the parent's edit click exactly when the badge catches the pointer |
| `DragController.UnsetDialogPropKeepsBadgeLive` | src/components/room-designer.tsx:298 | with the dialog prop left unset, as every rendered call leaves it, the badge is visible and clickable and its click always reaches the parent |
| `DragController.MissLeavesDragAlone` | src/components/FurnitureItem.tsx:132-134 | a missed click hides the badge and changes neither a following move nor a release |
| `DragController.NoJumpAtGrabPoint` | src/components/FurnitureItem.tsx:85-130 | grabbing a floor-level item inside its box and moving back to the grab point reports the item's own position |
| `DragController.MovesAfterReleaseAreSilent` | src/components/FurnitureItem.tsx:100-130 | after pointer-up or pointer-out, moves report nothing |
| `AppContext.InitialUi` | src/context/AppContext.tsx:96-140 | the provider starts closed, unselected, not dragging, with no dialog open and a 10 x 10 x 5 room |
| `AppContext.DefaultRoomFitsNothing` | src/context/AppContext.tsx:58 | in the 0 x 0 room a consumer sees outside a provider, every drag box is empty and clamping pins an item to the lower corner |
| `AppContext.SeedFurniture` | src/context/AppContext.tsx:104-131 | two medium, unrotated sofas with hidden badges and the drawn ids, unique when the ids differ |
| `AppContext.ToggleMeasurements` | src/context/AppContext.tsx:137-138 | the overlay flag flips and nothing else changes |
| `AppContext.ToggleMeasurementsTwiceIsIdentity` | src/context/AppContext.tsx:137-138 | two toggles restore the state |
| `AppContext.SeedFurnitureInsideBounds` | src/context/AppContext.tsx:104-136 | both seed couches lie inside their drag boxes in the provider's room, but not at floor height |
| `ModelLoader.FindItem` | src/models/ModelLoader.tsx:42-43 | None exactly when no item has the id; otherwise an item of the list with that id, the only one when ids are unique |
| `ModelLoader.GetSizeScale` | src/models/ModelLoader.tsx:99-110 | small gives 0.8, large 1.2, every other word including "xl" gives 1 |
| `ModelLoader.XlScalesLikeMedium` | src/models/ModelLoader.tsx:99-110 | xl renders like medium and smaller than large |
| `ModelLoader.NormalisationScale` | src/models/ModelLoader.tsx:84 | the factor is positive and brings the bounding radius to the size's scale |
| `ModelLoader.Normalise` | src/models/ModelLoader.tsx:75-87 | after scaling, the bounding radius equals the size's scale |
| `ModelLoader.NormaliseIdempotent` | src/models/ModelLoader.tsx:95-97 | rerunning the effect on an unchanged size changes nothing |
| `ModelLoader.SharedGeometryTakesLastSize` | src/models/ModelLoader.tsx:84-97 | a shared geometry ends at the scale of the last size applied to it |
| `ModelLoader.PointerDown` | src/models/ModelLoader.tsx:45-48 | dragging starts, the press time is kept, and the badge is unchanged |
| `ModelLoader.PointerUp` | src/models/ModelLoader.tsx:50-56 | dragging stops, the press time clears, and the badge flips exactly on a non-zero press at most 200 ms back |
| `ModelLoader.TwoQuickClicksRestoreBadge` | src/models/ModelLoader.tsx:45-56 | two quick clicks leave the badge as it was |
| `ModelLoader.UpWithoutPressKeepsBadge` | src/models/ModelLoader.tsx:50-56 | a pointer-up with no recorded press never flips the badge |
| `ModelLoader.OnEditClick` | src/models/ModelLoader.tsx:58-67 | from closed: opens on the item; otherwise: closes and collapses, keeping the selection; nothing else changes |
| `ModelLoader.EditClickTwiceCloses` | src/models/ModelLoader.tsx:58-67 | two edit clicks from closed end closed and collapsed, with the item selected |
| `ModelLoader.FirstEditClickOpens` | src/context/AppContext.tsx:96-140 | from the provider's start state the first edit click opens the panel on the item and the second closes it |
| `InspireWizard.Filter` | src/components/InspireDialog.tsx:101-113 | keeps exactly the elements satisfying the test, each as often as it occurs, in their original order |
| `InspireWizard.Toggle` | src/components/InspireDialog.tsx:101-113 | the element's membership flips and others keep theirs; a removal shrinks in order, an insertion appends; no duplicates are created |
| `InspireWizard.FilterDropsAbsent` | src/components/InspireDialog.tsx:112 | filtering out a listed element shortens the list |
| `InspireWizard.FilterKeepsNoDuplicates` | src/components/InspireDialog.tsx:112 | filtering keeps a list free of duplicates |
| `InspireWizard.ToggleTwiceSameMembers` | src/components/InspireDialog.tsx:101-113 | toggling twice restores the members |
| `InspireWizard.GetRecommendedItems` | src/components/InspireDialog.tsx:115-140 | the five room types get non-empty lists, with five decorations each; any other word gets two empty lists |
| `InspireWizard.ExclusionToggleFlipsOneTick` | src/components/InspireDialog.tsx:111-113 | clicking an item's checkbox flips its tick and no other |
| `InspireWizard.Mounted` | src/components/InspireDialog.tsx:77-99 | the dialog mounts at step 0 with nothing excluded or included, or at step 1 when mounted open, since the effect on `isOpen` also runs at mount |
| `InspireWizard.IncludedItems` | src/components/InspireDialog.tsx:375-377 | exactly the recommended items still ticked, each as often as listed, furniture then decorations in list order |
| `InspireWizard.HandleNext` | src/components/InspireDialog.tsx:365-391 | steps forward up to the last question, reloading the recommendations from the current room type on leaving step 3 and recording the summary on leaving step 6; past that it asks to close; nothing else changes |
| `InspireWizard.HandlePrevious` | src/components/InspireDialog.tsx:393-397 | steps back, never from step 1 or below |
| `InspireWizard.OnOpenChanged` | src/components/InspireDialog.tsx:404-408 | records the prop; only a change to true restarts at step 1, and passing the same value changes nothing |
| `InspireWizard.StartFromIntro` | src/components/InspireDialog.tsx:412-414 | the intro's start goes to step 2 |
| `InspireWizard.Dismiss` | src/components/InspireDialog.tsx:415-430 | every dismissal resets to step 1 and asks to close |
| `InspireWizard.ProposedFurniture` | src/components/InspireDialog.tsx:399-402 | exactly the included items that are recommended furniture, each as often as included, in summary order |
| `InspireWizard.HandleAddToRoom` | src/components/InspireDialog.tsx:399-402 | "Add to room" asks the page to close and leaves the wizard, its step included, as it was |
| `InspireWizard.AddToRoomKeepsSummaryStep` | src/components/InspireDialog.tsx:399-430 | after "Add to room" and the page's close the step stays on the summary until the next opening resets it to 1; a dismissal resets it at once |
| `InspireWizard.ClosedDialogIgnoresItsControls` | src/components/InspireDialog.tsx:421-449 | once the page has closed the question dialog, none of its controls does anything |
| `InspireWizard.ReopenWhileOpenKeepsStep` | src/components/InspireDialog.tsx:404-408 | passing `isOpen` true again to an open dialog keeps its step; a close then an open restarts at step 1 |
| `InspireWizard.IntroOutlivesDismissal` | src/components/InspireDialog.tsx:410-430 | as written, after a dismissal and the page's close the intro is still shown with start and close live, and its close changes nothing |
| `InspireWizard.IntendedDismissalClearsScreen` | src/components/InspireDialog.tsx:410-430 | with the intro shown only while open, a dismissal and the page's close leave no control on screen, and the next opening shows the intro |
| `InspireWizard.SelectRoomType` | src/components/InspireDialog.tsx:206-211 | the room-type select records the value and loads its recommendations at once, nothing else changes |
| `InspireWizard.Apply` | src/components/InspireDialog.tsx:410-449 | a control not on screen (any dialog control while `isOpen` is false, Next on the intro or the summary, Previous on the first question, a question's input on another step) does nothing; Next and Previous move one step; a dismissal goes to step 1; "Add to room" changes nothing; an exclusion click toggles that item only |
| `InspireWizard.StepStaysInRange` | src/components/InspireDialog.tsx:365-430 | any sequence of events keeps the step within 0..7 |
| `InspireWizard.OpenedStepNeverBelowOne` | src/components/InspireDialog.tsx:393-430 | once at step 1 or above, no event takes the step below 1 |
| `InspireWizard.WalkReachesSummary` | src/components/InspireDialog.tsx:365-402 | from the open intro, start, Next, Next, room type v, Next, Next, Next reaches the summary with v's ticked recommendations, and the proposed furniture is exactly v's ticked furniture |
| `InspireWizard.WalkSteps` | src/components/InspireDialog.tsx:365-391 | the state reached by that walk: step 7, v's recommendations, and the summary recording v and its ticked items |
| `InspireWizard.NextIgnoredOnIntro` | src/components/InspireDialog.tsx:410-449 | the intro shows no Next button, so Nexts there change nothing |
| `InspireWizard.MountedWaitsForOpen` | src/components/InspireDialog.tsx:404-408 | mounted closed, only opening changes the state, and it gives the state mounted open |
| `FloatingMenu.RequestRemove` | src/components/FloatingMenu.tsx:172-175 | the confirmation opens for the entry's item |
| `FloatingMenu.HandleRemove` | src/components/FloatingMenu.tsx:80-87 | without a non-empty pending id nothing happens; with one, that item is removed, the confirmation closes and the accordion collapses |
| `FloatingMenu.RemoveButtonThenConfirm` | src/components/FloatingMenu.tsx:80-87 | remove then confirm removes exactly the entry's item and closes the confirmation |
| `FloatingMenu.SecondConfirmIsNoOp` | src/components/FloatingMenu.tsx:80-87 | a second confirmation does nothing |
| `FloatingMenu.Issue` | src/components/FloatingMenu.tsx:136-165 | an entry's command is about its own item and carries the picked colour or size |
| `FloatingMenu.EntriesTargetTheirOwnItems` | src/components/FloatingMenu.tsx:136-165 | with unique ids, commands from two different entries are about two different items |
| `FloatingMenu.SameKind` | src/components/FloatingMenu.tsx:118 | exactly the items of the kind |
| `FloatingMenu.SameKindKeepsOrder` | src/components/FloatingMenu.tsx:118 | the items of the kind keep their list order (a subsequence of the list) |
| `FloatingMenu.SameKindCounts` | src/components/FloatingMenu.tsx:118 | each item of the kind is kept as often as it is listed, and no other item is kept |
| `FloatingMenu.OrdinalInRange` | src/components/FloatingMenu.tsx:118 | a listed item's "#n" lies between 1 and the count of its kind |
| `FloatingMenu.OrdinalsDistinct` | src/components/FloatingMenu.tsx:118 | two items of one kind with different ids get different numbers |
| `FloatingMenu.SameKindKeepsUniqueIds` | src/components/FloatingMenu.tsx:118 | filtering by kind keeps ids unique |
| `FloatingMenu.OrdinalsNumberTheKind` | src/components/FloatingMenu.tsx:118 | with unique ids the numbers of a kind are 1..k in list order |
| `FloatingMenu.OrdinalsFollowListOrder` | src/components/FloatingMenu.tsx:118 | with unique ids, of two items of one kind the earlier listed gets the smaller number |
| `FloatingMenu.HeadHasFirstOrdinal` | src/components/FloatingMenu.tsx:118 | the first listed item gets #1 and a later item of its kind a larger number |
| `FloatingMenu.OrdinalBehindHead` | src/components/FloatingMenu.tsx:118 | a later item's number is its number without the head, plus one when the head has its kind |
| `FloatingMenu.AtMostOneExpanded` | src/components/FloatingMenu.tsx:111 | with unique ids at most one entry is expanded |
| `FloatingNavigation.ButtonCalls` | src/components/FloatingNavigation.tsx:53-56 | a button first hides the badge, then opens its dialog |
| `FloatingNavigation.HandleButtonClick` | src/components/FloatingNavigation.tsx:53-71 | the badge is hidden, the button's dialog is open, other dialogs keep their flags |
| `FloatingNavigation.ButtonsNeverCloseDialogs` | src/components/FloatingNavigation.tsx:63-71 | no button closes an open dialog |
| `FloatingNavigation.ButtonClickIdempotent` | src/components/FloatingNavigation.tsx:53-71 | clicking a button again changes nothing |
| `CouchPage.Initial` | src/components/separate_files/room-designer.tsx:13-25 | the page starts unrotated and visible, in the first colour option and a size with a length, closed, collapsed, not dragging, badge hidden |
| `CouchPage.Rotate` | src/components/separate_files/room-designer.tsx:27-29 | the angle strictly grows and nothing else changes |
| `CouchPage.RotateTimesAddsQuarterTurns` | src/components/new_stable/3d-scene-with-nav.tsx:627-629 | n rotates add exactly n quarter turns and change nothing else |
| `CouchPage.FourRotatesAddFullTurn` | src/components/new_stable/3d-scene-with-nav.tsx:627-629 | four rotates add a full turn instead of wrapping |
| `CouchPage.ColorChange` | src/components/separate_files/room-designer.tsx:31-33 | sets the colour only |
| `CouchPage.SizeChange` | src/components/separate_files/room-designer.tsx:39-41 | sets the size only |
| `CouchPage.Remove` | src/components/separate_files/room-designer.tsx:35-37 | only hides the couch |
| `CouchPage.SettersLastWriteWins` | src/components/separate_files/room-designer.tsx:31-41 | the last colour or size written wins, colour and size commute, removing twice is removing once |
| `CouchPage.Drag` | src/components/separate_files/room-designer.tsx:43-45 | sets the position only |
| `CouchPage.DragStart` | src/components/separate_files/room-designer.tsx:47-49 | sets the drag flag only, which unmounts the orbit controls |
| `CouchPage.DragEnd` | src/components/separate_files/room-designer.tsx:51-53 | clears the drag flag only, which brings the orbit controls back |
| `CouchPage.ToggleMenu` | src/components/separate_files/room-designer.tsx:55-57 | the menu state flips and nothing else changes |
| `CouchPage.ToggleMenuInvolution` | src/components/new_stable/3d-scene-with-nav.tsx:655-657 | toggling twice restores the page |
| `CouchPage.ModelClick` | src/components/separate_files/room-designer.tsx:59-62 | opens the panel on the couch's entry, nothing else |
| `CouchPage.EditClick` | src/components/separate_files/room-designer.tsx:64-67 | opens the panel on the couch's entry, nothing else |
| `CouchPage.ClicksIgnorePriorMenu` | src/components/new_stable/3d-scene-with-nav.tsx:659-667 | model and edit click agree and ignore the prior menu and accordion |
| `CouchPage.CanvasClick` | src/components/separate_files/room-designer.tsx:69-74 | closes the panel and collapses the accordion, nothing else |
| `CouchPage.CanvasClickUndoesModelClick` | src/components/separate_files/room-designer.tsx:59-74 | a canvas click after a couch click leaves the page closed and collapsed, otherwise as before |
| `CouchPage.PointerDown` | src/components/separate_files/Couch.tsx:91-101 | the couch grabs with hit point plus offset at its position; the page hears a drag start |
| `CouchPage.PointerUp` | src/components/separate_files/Couch.tsx:103-112 | the handler for a given `delta`: the drag always ends; a `delta` of at most 2 px also shows the badge and opens the couch's entry |
| `CouchPage.PointerMove` | src/components/separate_files/Couch.tsx:114-121 | only while dragging, reports hit plus offset at floor height |
| `CouchPage.MoveIsUnclamped` | src/components/new_stable/3d-scene-with-nav.tsx:113-120 | a dragged couch can be reported at any x |
| `CouchPage.PointerMissed` | src/components/separate_files/Couch.tsx:123-125 | the couch's own miss handler only hides the badge |
| `CouchPage.CanvasMiss` | src/components/separate_files/room-designer.tsx:69-78 | a click on empty canvas runs the couch's miss handler and the canvas handler: the panel ends closed and collapsed, the badge hidden, nothing else changes |
| `CouchPage.CouchRelease` | src/components/separate_files/room-designer.tsx:69-78 | a release on the couch, with the pointer-up's `delta` of 0, ends the drag, shows the badge, and then reaches the canvas handler: the panel ends closed and collapsed; nothing else changes |
| `CouchPage.IntendedCouchRelease` | src/components/separate_files/Couch.tsx:103-112 | the evident intent, the couch's pointer-up alone with the pointer's real travel: a travel of at most 2 px opens the couch's entry and shows the badge, a longer one leaves panel and badge as they were |
| `CouchPage.CouchClickClosesPanel` | src/components/separate_files/room-designer.tsx:59-78 | as written, press and release in place on the couch leaves the panel closed and collapsed, though the pointer-up had opened it; only the badge shows |
| `CouchPage.MissUndoesIntendedClick` | src/components/separate_files/room-designer.tsx:59-78 | a miss after a couch click gives back the page the press found, closed, collapsed and with the badge hidden |
| `CouchPage.DragReleaseShowsBadge` | src/components/separate_files/Couch.tsx:103-112 | as written, the end of a drag is taken for a click: the pointer-up opens the couch's entry, the badge ends shown, the panel closed and collapsed, the couch at the last reported position |
| `CouchPage.BadgeStyleFor` | src/components/separate_files/Couch.tsx:167-174 | size and opacity follow the badge flag, but the badge always catches the pointer, since the quoted pointer-events values are invalid |
| `CouchPage.IntendedBadgeStyleFor` | src/components/separate_files/Couch.tsx:167-174 | the evident intent: the badge catches the pointer exactly while shown |
| `CouchPage.BadgeClick` | src/components/separate_files/Couch.tsx:176 | a click on the badge's spot is the edit click when the badge catches the pointer, nothing otherwise |
| `CouchPage.HiddenBadgeStillOpensPanel` | src/components/separate_files/Couch.tsx:167-176 | as written, a click on a hidden badge still opens the panel |
| `CouchPage.IntendedBadgeClickNeedsShownBadge` | src/components/separate_files/Couch.tsx:167-176 | with the intended style only a shown badge reacts |
| `CouchPage.CouchLengthsMatchOptions` | src/components/separate_files/Couch.tsx:127-132 | the couch's length table equals the shared one |
| `CouchPage.ClickOpensCouchEntry` | src/components/separate_files/Couch.tsx:91-112 | with the intended release, press and release in place ends the drag, shows the badge and opens the couch's entry |
| `CouchPage.DragKeepsMenu` | src/components/separate_files/Couch.tsx:91-121 | with the intended release, a real drag leaves the panel and the badge alone and the couch at the last reported position |
| `OutlinePage.ScaleTableAgainstLoader` | src/components/outline/3d-scene-with-nav.tsx:39-44 | scales run from 0.8 to 1.4 in steps of 0.2 and match the loader's except for xl |
| `OutlinePage.SizeMenuItemsAreTheScaledSizes` | src/components/outline/3d-scene-with-nav.tsx:39-44 | a word has a scale exactly when it is a size menu item's value |
| `OutlinePage.Initial` | src/components/outline/3d-scene-with-nav.tsx:347-352 | starts unrotated, visible and not hovered; the quoted start size has no scale and matches no size menu item, and the quoted colour matches no swatch |
| `OutlinePage.PickedSizeHasScale` | src/components/outline/3d-scene-with-nav.tsx:351-368 | the start size has no scale, and picking any size menu item gives one |
| `OutlinePage.Rotate` | src/components/outline/3d-scene-with-nav.tsx:354-356 | the angle strictly grows and nothing else changes |
| `OutlinePage.FourRotatesAddFullTurn` | src/components/outline/3d-scene-with-nav.tsx:354-356 | four rotates add a full turn and change nothing else |
| `OutlinePage.ColorChange` | src/components/outline/3d-scene-with-nav.tsx:358-360 | sets the colour only |
| `OutlinePage.SizeChange` | src/components/outline/3d-scene-with-nav.tsx:366-368 | sets the size only |
| `OutlinePage.Remove` | src/components/outline/3d-scene-with-nav.tsx:362-364 | only hides the couch |
| `OutlinePage.SettersLastWriteWins` | src/components/outline/3d-scene-with-nav.tsx:358-368 | the last colour or size written wins, colour and size commute, removing twice is removing once |
| `OutlinePage.Hover` | src/components/outline/3d-scene-with-nav.tsx:69-78 | couch and page hover flags both take the event's value; nothing else changes |
| `SharedState.JsRemFullTurn` | src/components/desktop/Navbar.tsx:91 | remainder with the dividend's sign, differing from it by a multiple of a full turn |
| `SharedState.WrapQuarterTurn` | src/components/desktop/Navbar.tsx:91 | always a quarter turn forward modulo full turns, landing in [-pi, pi) from any start at or above -3 pi / 2 |
| `SharedState.WrapStepsInsideHalfOpenRange` | src/components/Navbar.tsx:82 | inside [-pi, pi) the step adds pi/2, except at pi/2, which wraps to -pi |
| `SharedState.WrapHasPeriodFour` | src/components/Navbar.tsx:82 | four steps return every angle of [-pi, pi) to itself |
| `Navbar.ColorForLabel` | src/components/Navbar.tsx:53-59 | "Red" gives 1, anything else 2 |
| `Navbar.MenuLabelsPickEachColor` | src/components/Navbar.tsx:37-40 | the menu's "Red" and "Green" pick 1 and 2 |
| `Navbar.ColorClick` | src/components/Navbar.tsx:67-76 | fails on an absent entry; else the entry becomes colour-only and other keys stay, while the old state's entry is recoloured in place with its other properties intact |
| `Navbar.Rotate` | src/components/Navbar.tsx:78-88 | fails without entry or rotation; else z takes one wrap step in place, shared by the old and new state |
| `Navbar.FourRotatesRestore` | src/components/mobile/Navbar.tsx:78-88 | four rotates from [-pi, pi) restore the state |
| `Navbar.CorrectedColorClick` | src/components/desktop/Navbar.tsx:67-81 | the corrected update keeps the entry's other properties and adds the colour |
| `Navbar.RotateSucceedsAfterCorrectedColorClick` | src/components/Navbar.tsx:67-88 | after the corrected colour update a rotate succeeds and keeps the colour |
| `Navbar.RotateFailsAfterColorClick` | src/components/Navbar.tsx:67-88 | after the colour update as written, a rotate always fails |
| `Navbar.StrictModeColorClickSameResult` | src/index.jsx:17-21 | calling the colour updater twice on the same previous state, as React's development mode does, yields the same result |
| `Navbar.StrictModeRotatesTwice` | src/index.jsx:17-21 | calling the rotate updater twice on the same previous state steps z twice |
| `DesktopNavbar.ColorForLabel` | src/components/desktop/Navbar.tsx:53-59 | "Colorfull" gives 1, anything else 2 |
| `DesktopNavbar.MenuLabelsPickEachColor` | src/components/desktop/Navbar.tsx:37-40 | the menu's "Dark" and "Colorfull" pick 2 and 1 |
| `DesktopNavbar.ColorClick` | src/components/desktop/Navbar.tsx:67-81 | invalid selection: unchanged; else a copy keeps all properties and sets the colour; the old state is untouched |
| `DesktopNavbar.Rotate` | src/components/desktop/Navbar.tsx:83-101 | invalid selection: unchanged; fails without rotation; else a copy with y one wrap step on; the old state is untouched |
| `DesktopNavbar.RotateStaysInRange` | src/components/desktop/Navbar.tsx:83-101 | a rotate keeps y in [-pi, pi) and keeps x, z and the colour |
| `DesktopNavbar.FourRotatesRestore` | src/components/desktop/Navbar.tsx:83-101 | four rotates from [-pi, pi) restore the state |
| `DesktopNavbar.RotateSucceedsAfterColorClick` | src/components/desktop/Navbar.tsx:67-101 | a rotate after a colour change succeeds and keeps the colour |
| `DesktopNavbar.StrictModeRotatesOnce` | src/index.jsx:17-21 | calling either updater twice on the same previous state gives the one-call result |
| `Buttons.LabelOf` | src/reactButtons/Buttons.tsx:56-57 | "Color 1" passes 1 and "Color 2" passes 2 |
| `Buttons.StoredNumberIdentifiesButton` | src/reactButtons/Buttons.tsx:28-57 | the stored number tells which button was clicked |
| `Buttons.HandleClick` | src/reactButtons/Buttons.tsx:28-34 | stores the number under the selection, adding it if new; other keys keep their values |
| `Buttons.LastClickWins` | src/reactButtons/Buttons.tsx:28-34 | of two clicks only the second is kept |

## Left out

- Ray casting, the camera, lights, `useFrame` rotation lerping, cursors and
  all JSX layout. Each event carries the floor point it hits.
- The click-outside listener, tooltips, dropdown open flags and the
  `console.log`-only handlers.
- Experience.tsx, the commented-out room-designer.tsx, FurnitureBrowser,
  RoomSettingsDialog, the other InspireDialog, Measurements, the mobile-view
  context and presentation-only files: not part of this model.
- Floating-point rounding: numbers are exact reals, and angles are whole
  quarter turns. An angle that is not a multiple of pi/2 cannot occur from the
  program's own start values.
- `Navbar.Rotate`, `DesktopNavbar.Rotate`: a `rotation` that is not a
  three-angle array (a string, say) is treated as a TypeError. JavaScript
  would index or concatenate it instead.
- `Navbar.Rotate`, `Navbar.ColorClick`: these model the updater functions
  the toolbar passes to `setSharedState`, not the wiring. The toolbar reads
  `sharedState` and `setSharedState` from the app context
  (src/components/Navbar.tsx:30). src/context/AppContext.tsx supplies
  neither, so a click there throws before any updater runs. No start value
  shown holds a rotation array. src/reactButtons/AppContext.js holds plain
  numbers. Under React's development double call
  (src/index.jsx:17-21), the in-place rotate steps twice
  (`Navbar.StrictModeRotatesTwice`).
- `DesktopNavbar.Rotate`, `DesktopNavbar.ColorClick`: these also model the
  updater functions only. The same context gap applies
  (src/components/desktop/Navbar.tsx:30). Their copy-on-write updates are
  unaffected by the double call (`DesktopNavbar.StrictModeRotatesOnce`).
- `DragController`, `Boundary`: src/components/FurnitureItem.tsx:1 does not
  import `useMemo`, which it calls at lines 58, 59, 65 and 136. As written,
  rendering an item throws a ReferenceError. The model assumes the import is
  present. The component is also rendered only from commented-out code.
- `CouchPage.Initial`: this follows the plain start values of
  src/components/separate_files/room-designer.tsx:13-25. The copy in
  src/components/new_stable/3d-scene-with-nav.tsx:614-625 is modelled by its
  evident intent. Its start size `'medium'` (quotes included) has no length
  and matches no size radio. Its colour `'#8A9A5B'` matches no swatch. Its
  `addEventListener("'click'", …)` (line 153) listens for an event that
  never fires. It declares `function 3dSceneWithNav`, which does not parse,
  and so does the outline page (line 347). Both import from `"'react'"`.
- `ModelLoader.PointerUp`: a press recorded at timestamp 0 is falsy and never
  counts as a click. The model keeps that edge case as written.
- `ModelLoader.NormalisationScale`: requires a positive radius. The source
  divides by whatever radius three.js computed, and a zero radius would give
  Infinity.
- `ModelLoader.Normalise`: assumes three.js recomputes the bounding sphere
  after `geometry.scale`. That library is not part of this model.
- `InspireWizard.HandlePrevious`: this is the handler alone. The button's
  `disabled={step === 2}` guard is part of `InspireWizard.Shown`, which
  `InspireWizard.Apply` consults.
- `InspireWizard.Apply`: the style and palette inputs are modelled as the
  values they pass. The lists of offered values are not modelled.
- `InspireWizard.ProposedFurniture`: this is the list handed to the page.
  The close that follows it is `InspireWizard.HandleAddToRoom`, which keeps
  the step, since only the dismissals reset it.
- `CouchPage.CouchRelease`: assumes React renders between the pointer-up and
  the click that follows it, as it does for discrete events, so the canvas
  handler sees the panel the pointer-up opened. Without that render the
  handler would read the menu state from before the press, so a panel closed
  at the press would end open, though collapsed.
- `CouchPage.PointerUp`: the value of `delta` on a pointer-up, 0, is taken
  from @react-three/fiber's event code, which is not part of this model.
- `CouchPage.CanvasMiss`: in src/components/new_stable/3d-scene-with-nav.tsx
  the couch has no miss handler of its own, so a miss there is the canvas
  handler alone and the badge keeps its state.
- JavaScript's prototype keys (`"constructor"` and the like) are not
  modelled in map lookups.
- The provider's `hover` and `setRoomDimensions` setters are plain field
  writes, so they have no member.
- The render guards of the toolbars and of the colour buttons (nothing is
  drawn while `selected` is empty) are the predicates `Navbar.Rendered`,
  `DesktopNavbar.Rendered` and `Buttons.Rendered`. They have no contract of
  their own.
- The toolbars' `handleResize` only logs and closes its own dropdown. It
  leaves the shared state alone, so it has no member.

## Findings

| source | as written | input that shows it | evidently intended | confidence | as-written member | corrected member |
|---|---|---|---|---|---|---|
| src/components/separate_files/Couch.tsx:173 (also src/components/new_stable/3d-scene-with-nav.tsx:196) | the badge's `pointerEvents` is `"'auto'"` or `"'none'"`, with the quotes inside the string, so the value is invalid and dropped | a page with the badge hidden: click where the transparent badge sits; it still catches the click and calls `onEditClick`, opening the panel | a hidden badge lets clicks through (`pointerEvents: "none"`), as src/components/FurnitureItem.tsx:240 writes it | not executed | `CouchPage.HiddenBadgeStillOpensPanel` | `CouchPage.IntendedBadgeClickNeedsShownBadge` |
| src/components/separate_files/room-designer.tsx:69-78 (also src/components/new_stable/3d-scene-with-nav.tsx:669-678) | the canvas's `onClick` lands on its wrapper element, so every press and release on the canvas, one on the couch included, ends in a DOM click that runs `handleCanvasClick`; the couch's `stopPropagation` only stops propagation among scene objects | the panel closed: press and release the couch without moving; the pointer-up opens the panel on the couch's entry, then the click closes it and collapses the accordion | a click on the couch leaves the panel open on its entry, and only a click on empty canvas closes it | not executed | `CouchPage.CouchClickClosesPanel` | `CouchPage.ClickOpensCouchEntry` |
| src/components/separate_files/Couch.tsx:103-112 (also src/components/new_stable/3d-scene-with-nav.tsx:102-111) | the pointer-up tells a click from a drag by `e.delta <= 2`, but @react-three/fiber measures `delta` only for click-type events and leaves 0 on a pointer-up | grab the couch, drag it across the floor and release; the release counts as a click, shows the badge and opens the couch's entry | only a release after a travel of at most 2 px is a click, and a drag leaves panel and badge as they were | not executed | `CouchPage.DragReleaseShowsBadge` | `CouchPage.DragKeepsMenu` |
| src/components/InspireDialog.tsx:412-420 (also src/components/InspireAnimation.tsx:13) | the full-screen intro overlay is rendered on `step === 1` alone, and both dismissals set step 1 before calling `onClose` | open the questionnaire and close it, from the intro's X or the question dialog; the page clears `isOpen`, yet the overlay stays, and its X only repeats the dismissal | the intro is shown only while the dialog is open, `step === 1 && isOpen` | not executed | `InspireWizard.IntroOutlivesDismissal` | `InspireWizard.IntendedDismissalClearsScreen` |
| src/components/Navbar.tsx:67-76 (also src/components/mobile/Navbar.tsx:67-76) | the colour update returns `{...sharedState, [selected]: {color}}`, dropping every other property of the entry, its rotation among them | a selected entry with a rotation array: change its colour, then press rotate; `updateObject["rotation"][2]` reads a property of `undefined` and throws | keep the entry's properties and set the colour, as src/components/desktop/Navbar.tsx:75-78 does | not executed | `Navbar.RotateFailsAfterColorClick` | `Navbar.RotateSucceedsAfterCorrectedColorClick` |

=== FILE: app_context.dfy ===
/** The global UI state the app context provides (src/context/AppContext.tsx):
    menu and accordion, dialog flags, selection, the room and the seed
    furniture. Fresh ids come from a uuid generator, so they are parameters. */
module AppContext {
  import opened Types
  import Boundary

  datatype RoomDimensions = RoomDimensions(width: real, length: real, height: real)

  datatype UiState = UiState(
    menu: MenuState,
    isDragging: bool,
    activeAccordion: string,
    isFurnitureBrowserOpen: bool,
    isInspireDialogOpen: bool,
    isRoomSettingsOpen: bool,
    selected: string,
    hovered: string,
    room: RoomDimensions,
    showMeasurements: bool,
    scale: real,
    backgroundColor: string
  )

  /** The room a consumer sees outside any provider. */
  const ContextDefaultRoom: RoomDimensions := RoomDimensions(0.0, 0.0, 0.0)

  /** The room the provider starts with. */
  const ProviderRoom: RoomDimensions := RoomDimensions(10.0, 10.0, 5.0)

  /** Outside a provider the room is 0 x 0, so no item fits: every drag box
      is empty on both axes and clamping pins any candidate to the box's
      lower corner. */
  lemma DefaultRoomFitsNothing(kind: string, size: string, x: real, z: real)
    requires Boundary.FootprintOf(kind, size).Some?
    ensures var b := Boundary.BoundsFor(Boundary.Floor(ContextDefaultRoom.width, ContextDefaultRoom.length),
                                        Boundary.FootprintOf(kind, size).value);
      && b.minX > b.maxX && b.minZ > b.maxZ
      && Boundary.Clamp(b.minX, b.maxX, x) == b.minX
      && Boundary.Clamp(b.minZ, b.maxZ, z) == b.minZ
  {
    var fp := Boundary.FootprintOf(kind, size).value;
    assert fp.width > 0.0 && fp.depth > 0.0;
    var b := Boundary.BoundsFor(Boundary.Floor(0.0, 0.0), fp);
    assert b.minX > b.maxX && b.minZ > b.maxZ;
  }

  /** The state the provider starts with. */
  function InitialUi(): (u: UiState)
    ensures u.menu == Closed && u.activeAccordion == "" && u.selected == "" && u.hovered == ""
    ensures !u.isDragging && !u.showMeasurements
    ensures !u.isFurnitureBrowserOpen && !u.isInspireDialogOpen && !u.isRoomSettingsOpen
    ensures u.room.width == u.room.length == 10.0 && u.room.height == 5.0
  {
    UiState(Closed, false, "", false, false, false, "", "", ProviderRoom, false, 1.0, "#ffffff")
  }

  /** The two couches the provider starts with; `bubblyId` and `modernId`
      are the uuids drawn at start-up. */
  function SeedFurniture(bubblyId: string, modernId: string): (items: seq<FurnitureItem>)
    ensures |items| == 2
    ensures items[0].id == bubblyId && items[1].id == modernId
    ensures forall i :: 0 <= i < |items| ==>
      items[i].size == "medium" && items[i].rotation == 0 && !items[i].isEditVisible && items[i].kind == "sofa"
    ensures bubblyId != modernId ==> UniqueIds(items)
  {
    [ FurnitureItem(bubblyId, "Bubbly Couch", "#8A9A5B", "medium", "sofa", Vec3(-2.0, -0.5, 2.0), 0, 1.4,
                    false, "bubbly", "./bubblyRot2.glb"),
      FurnitureItem(modernId, "Modern Sofa", "#8A9A5B", "medium", "sofa", Vec3(0.0, -1.0, -3.0), 0, 2.5,
                    false, "modSofa", "./modernSofa2.glb") ]
  }

  /** Flip whether the measurements overlay is shown. */
  function ToggleMeasurements(u: UiState): (r: UiState)
    ensures r.showMeasurements != u.showMeasurements
    ensures r.(showMeasurements := u.showMeasurements) == u
  {
    u.(showMeasurements := !u.showMeasurements)
  }

  /** Toggling the overlay twice restores the state. */
  lemma ToggleMeasurementsTwiceIsIdentity(u: UiState)
    ensures ToggleMeasurements(ToggleMeasurements(u)) == u
  {
  }

  /** Both seed couches start inside the box the drag code would clamp them
      to in the provider's room, although neither stands at floor height. */
  lemma SeedFurnitureInsideBounds(bubblyId: string, modernId: string)
    ensures forall i :: 0 <= i < 2 ==>
      var it := SeedFurniture(bubblyId, modernId)[i];
      var fp := Boundary.FootprintOf(it.kind, it.size);
      var b := Boundary.BoundsFor(Boundary.Floor(ProviderRoom.width, ProviderRoom.length), fp.value);
      && fp.Some?
      && b.minX <= it.position.x <= b.maxX && b.minZ <= it.position.z <= b.maxZ
      && it.position.y != 0.0
  {
  }
}

=== FILE: boundary.dfy ===
/** Footprint, traversal box and clamping of a furniture item dragged over
    the floor (src/components/FurnitureItem.tsx). The box is computed from
    the UNROTATED footprint: the item's rotation is not an input. */
module Boundary {
  import opened Wrappers
  import FurnitureOptions

  /** Horizontal extent of an item: `width` along x, `depth` along z. */
  datatype Footprint = Footprint(width: real, depth: real)

  /** The floor the item moves on; the room's height plays no part here. */
  datatype Floor = Floor(width: real, length: real)

  /** The box the item's centre may occupy. */
  datatype Bounds = Bounds(minX: real, maxX: real, minZ: real, maxZ: real)

  const TableWidth: real := 1.2
  const TableDepth: real := 0.8
  const CouchDepth: real := 1.5

  /** The footprint the drag code uses. A table is 1.2 x 0.8 whatever its
      size; every other kind is a couch whose width is the length table's
      entry for its size and whose depth is 1.5. A couch whose size has no
      length entry gets None: the source reads `undefined` there and every
      bound becomes NaN. */
  function FootprintOf(kind: string, size: string): (r: Option<Footprint>)
    ensures kind == "table" ==> r == Some(Footprint(1.2, 0.8))
    ensures kind != "table" && size in FurnitureOptions.SizeToLength ==>
      r == Some(Footprint(FurnitureOptions.SizeToLength[size], 1.5))
    ensures kind != "table" && size !in FurnitureOptions.SizeToLength ==> r == None
    ensures r.Some? ==> r.value.width > 0.0 && r.value.depth > 0.0
  {
    if kind == "table" then Some(Footprint(TableWidth, TableDepth))
    else match FurnitureOptions.LengthOf(size)
      case Some(len) => Some(Footprint(len, CouchDepth))
      case None => None
  }

  /** The centre box that keeps the footprint between the walls of a floor
      centred on the origin: half the floor minus half the item, per axis. */
  function BoundsFor(floor: Floor, fp: Footprint): (b: Bounds)
    ensures b.minX == -b.maxX && b.minZ == -b.maxZ
    ensures b.minX <= b.maxX <==> fp.width <= floor.width
    ensures b.minZ <= b.maxZ <==> fp.depth <= floor.length
    ensures b.maxX + fp.width / 2.0 == floor.width / 2.0
    ensures b.maxZ + fp.depth / 2.0 == floor.length / 2.0
  {
    var halfRoomWidth := floor.width / 2.0;
    var halfRoomLength := floor.length / 2.0;
    var halfItemWidth := fp.width / 2.0;
    var halfItemDepth := fp.depth / 2.0;
    Bounds(-halfRoomWidth + halfItemWidth, halfRoomWidth - halfItemWidth,
           -halfRoomLength + halfItemDepth, halfRoomLength - halfItemDepth)
  }

  function Min(a: real, b: real): real { if a <= b then a else b }
  function Max(a: real, b: real): real { if a >= b then a else b }

  /** `Math.max(lo, Math.min(hi, v))`. When the box is empty (`lo > hi`) the
      lower bound wins. */
  function Clamp(lo: real, hi: real, v: real): (r: real)
    ensures lo <= hi ==> lo <= r <= hi
    ensures lo <= v <= hi ==> r == v
    ensures v < lo || hi < lo ==> r == lo
    ensures lo <= hi < v ==> r == hi
  {
    Max(lo, Min(hi, v))
  }

  /** Clamping a value already clamped changes nothing. */
  lemma ClampIdempotent(lo: real, hi: real, v: real)
    ensures Clamp(lo, hi, Clamp(lo, hi, v)) == Clamp(lo, hi, v)
  {
  }

  /** Clamping keeps the order of two candidates. */
  lemma ClampIsMonotone(lo: real, hi: real, v: real, w: real)
    requires v <= w
    ensures Clamp(lo, hi, v) <= Clamp(lo, hi, w)
  {
  }

  /** The clamped centre of an item that fits keeps its whole footprint
      between the walls on both axes. */
  lemma ClampedItemStaysInsideWalls(floor: Floor, fp: Footprint, x: real, z: real)
    requires fp.width <= floor.width && fp.depth <= floor.length
    ensures var b := BoundsFor(floor, fp);
      var cx := Clamp(b.minX, b.maxX, x);
      var cz := Clamp(b.minZ, b.maxZ, z);
      && -floor.width / 2.0 <= cx - fp.width / 2.0
      && cx + fp.width / 2.0 <= floor.width / 2.0
      && -floor.length / 2.0 <= cz - fp.depth / 2.0
      && cz + fp.depth / 2.0 <= floor.length / 2.0
  {
  }

  /** A table's box does not depend on the size it is given. */
  lemma TableIgnoresSize(size1: string, size2: string)
    ensures FootprintOf("table", size1) == FootprintOf("table", size2)
  {
  }

  /** A larger couch has a narrower x range and the same z range. */
  lemma LargerCouchNarrowerRange(floor: Floor, kind: string, small: string, large: string)
    requires kind != "table"
    requires small in FurnitureOptions.SizeToLength && large in FurnitureOptions.SizeToLength
    requires FurnitureOptions.SizeToLength[small] <= FurnitureOptions.SizeToLength[large]
    ensures var s := BoundsFor(floor, FootprintOf(kind, small).value);
      var l := BoundsFor(floor, FootprintOf(kind, large).value);
      l.maxX <= s.maxX && l.minZ == s.minZ && l.maxZ == s.maxZ
  {
  }

  /** A table in a 10 x 10 room may move over x in [-4.4, 4.4], z in [-4.6, 4.6]. */
  lemma TableInTenByTenRoom(size: string)
    ensures BoundsFor(Floor(10.0, 10.0), FootprintOf("table", size).value) == Bounds(-4.4, 4.4, -4.6, 4.6)
  {
  }
}

=== FILE: buttons.dfy ===
/** The two colour buttons of src/reactButtons/Buttons.tsx, writing a colour
    number under the selected object's name in a flat shared map. */
module Buttons {

  datatype ColorButton = ColorOne | ColorTwo

  /** The number each button passes: "Color 1" passes 1, "Color 2" passes 2. */
  function LabelOf(b: ColorButton): (n: int)
    ensures n == 1 <==> b == ColorOne
    ensures n == 2 <==> b == ColorTwo
  {
    match b
    case ColorOne => 1
    case ColorTwo => 2
  }

  predicate Rendered(selected: string) {
    selected != ""
  }

  /** Store `n` under `selected`, adding the key when it is new; every
      other key keeps its value. */
  function HandleClick(s: map<string, int>, selected: string, n: int): (r: map<string, int>)
    ensures r.Keys == s.Keys + {selected}
    ensures r[selected] == n
    ensures forall k :: k in s && k != selected ==> r[k] == s[k]
  {
    s[selected := n]
  }

  /** The two buttons store different numbers, so the stored number tells
      which button was clicked last. */
  lemma StoredNumberIdentifiesButton(s: map<string, int>, selected: string, b: ColorButton, c: ColorButton)
    ensures HandleClick(s, selected, LabelOf(b))[selected] == HandleClick(s, selected, LabelOf(c))[selected] <==> b == c
  {
  }

  /** The last click wins: two clicks store the second label only. */
  lemma LastClickWins(s: map<string, int>, selected: string, b1: ColorButton, b2: ColorButton)
    ensures HandleClick(HandleClick(s, selected, LabelOf(b1)), selected, LabelOf(b2))
         == HandleClick(s, selected, LabelOf(b2))
  {
  }
}

=== FILE: couch_page.dfy ===
/** The single-couch room designer page and its couch. The same page state
    machine appears twice, in src/components/new_stable/3d-scene-with-nav.tsx
    and src/components/separate_files/room-designer.tsx; the couch's pointer
    rules appear in the former's inline `Couch` and in
    src/components/separate_files/Couch.tsx. */
module CouchPage {
  import opened Wrappers
  import opened Types
  import FurnitureOptions

  /** The accordion entry the couch opens. */
  const CouchAccordion: string := "comfy-couch"

  /** The page's state. `rotation` counts quarter turns. `isCouchEditVisible`
      is the badge flag, held by the page in the separate_files variant. */
  datatype Page = Page(
    rotation: int,
    color: string,
    isCouchVisible: bool,
    size: string,
    position: Vec3,
    isDragging: bool,
    menu: MenuState,
    activeAccordion: string,
    isCouchEditVisible: bool)

  /** The start state of the separate_files page: the first colour option
      and the medium size, at the origin, panel closed, badge hidden. */
  function Initial(): (p: Page)
    ensures p.rotation == 0 && p.isCouchVisible && p.size == "medium" && !p.isDragging
    ensures p.color == FurnitureOptions.ColorOptions[0].value
    ensures p.size in FurnitureOptions.SizeToLength
    ensures p.menu == Closed && p.activeAccordion == "" && !p.isCouchEditVisible
  {
    Page(0, "#8A9A5B", true, "medium", Vec3(0.0, 0.0, 0.0), false, Closed, "", false)
  }

  /** Rotate adds a quarter turn and never wraps. */
  function Rotate(p: Page): (r: Page)
    ensures r.rotation > p.rotation
    ensures r.(rotation := p.rotation) == p
  {
    p.(rotation := p.rotation + 1)
  }

  /** `n` rotate commands in a row. */
  function RotateTimes(p: Page, n: nat): Page
    decreases n
  {
    if n == 0 then p else Rotate(RotateTimes(p, n - 1))
  }

  /** `n` rotates add exactly `n` quarter turns and change nothing else; in
      particular four rotates add a full turn rather than returning to the
      start value. */
  lemma {:induction false} RotateTimesAddsQuarterTurns(p: Page, n: nat)
    ensures RotateTimes(p, n).rotation == p.rotation + n
    ensures RotateTimes(p, n).(rotation := p.rotation) == p
  {
    if n > 0 {
      RotateTimesAddsQuarterTurns(p, n - 1);
    }
  }

  /** Four rotates add a full turn (4 quarter turns). */
  lemma FourRotatesAddFullTurn(p: Page)
    ensures RotateTimes(p, 4).rotation == p.rotation + 4
  {
    RotateTimesAddsQuarterTurns(p, 4);
  }

  function ColorChange(p: Page, color: string): (r: Page)
    ensures r.color == color && r.(color := p.color) == p
  {
    p.(color := color)
  }

  function SizeChange(p: Page, size: string): (r: Page)
    ensures r.size == size && r.(size := p.size) == p
  {
    p.(size := size)
  }

  /** Each setter's last write wins, the setters for different fields
      commute, and removing twice is removing once. */
  lemma SettersLastWriteWins(p: Page, c1: string, c2: string, s1: string, s2: string)
    ensures ColorChange(ColorChange(p, c1), c2) == ColorChange(p, c2)
    ensures SizeChange(SizeChange(p, s1), s2) == SizeChange(p, s2)
    ensures ColorChange(SizeChange(p, s1), c1) == SizeChange(ColorChange(p, c1), s1)
    ensures Remove(Remove(p)) == Remove(p)
    ensures Remove(ColorChange(p, c1)) == ColorChange(Remove(p), c1)
  {
  }

  /** Remove only hides the couch. */
  function Remove(p: Page): (r: Page)
    ensures !r.isCouchVisible && r.(isCouchVisible := p.isCouchVisible) == p
  {
    p.(isCouchVisible := false)
  }

  function Drag(p: Page, position: Vec3): (r: Page)
    ensures r.position == position && r.(position := p.position) == p
  {
    p.(position := position)
  }

  function DragStart(p: Page): (r: Page)
    ensures r.isDragging && !OrbitControlsShown(r)
    ensures r.(isDragging := p.isDragging) == p
  {
    p.(isDragging := true)
  }

  function DragEnd(p: Page): (r: Page)
    ensures !r.isDragging && OrbitControlsShown(r)
    ensures r.(isDragging := p.isDragging) == p
  {
    p.(isDragging := false)
  }

  /** The camera's orbit controls are mounted exactly while no drag is going on. */
  predicate OrbitControlsShown(p: Page) {
    !p.isDragging
  }

  /** The panel's toggle button swaps open and closed. */
  function ToggleMenu(p: Page): (r: Page)
    ensures r.menu != p.menu
    ensures r.(menu := p.menu) == p
  {
    p.(menu := if p.menu == Open then Closed else Open)
  }

  lemma ToggleMenuInvolution(p: Page)
    ensures ToggleMenu(ToggleMenu(p)) == p
  {
  }

  /** A click on the couch opens the panel on the couch's entry. */
  function ModelClick(p: Page): (r: Page)
    ensures r.menu == Open && r.activeAccordion == CouchAccordion
    ensures r.(menu := p.menu, activeAccordion := p.activeAccordion) == p
  {
    p.(menu := Open, activeAccordion := CouchAccordion)
  }

  /** The badge's edit click does the same as a click on the couch. */
  function EditClick(p: Page): (r: Page)
    ensures r.menu == Open && r.activeAccordion == CouchAccordion
    ensures r.(menu := p.menu, activeAccordion := p.activeAccordion) == p
  {
    p.(menu := Open, activeAccordion := CouchAccordion)
  }

  /** Model click and edit click agree, and neither depends on the prior menu
      or accordion. */
  lemma ClicksIgnorePriorMenu(p: Page, m: MenuState, acc: string)
    ensures ModelClick(p) == EditClick(p)
    ensures ModelClick(p.(menu := m, activeAccordion := acc)) == ModelClick(p)
  {
  }

  /** A click anywhere on the canvas closes the panel and collapses the accordion. */
  function CanvasClick(p: Page): (r: Page)
    ensures r.menu == Closed && r.activeAccordion == ""
    ensures r.(menu := p.menu, activeAccordion := p.activeAccordion) == p
  {
    var closed := if p.menu == Open then p.(menu := Closed) else p;
    assert closed.menu == Closed by { assert p.menu.Open? || p.menu.Closed?; }
    closed.(activeAccordion := "")
  }

  /** Closing after a click on the couch restores the panel's closed state
      and changes nothing else. */
  lemma CanvasClickUndoesModelClick(p: Page)
    ensures CanvasClick(ModelClick(p)) == p.(menu := Closed, activeAccordion := "")
    ensures p.menu == Closed && p.activeAccordion == "" ==> CanvasClick(ModelClick(p)) == p
  {
  }

  /** The couch's own drag bookkeeping. */
  datatype Grip = Grip(dragging: bool, offset: Vec3, groupPosition: Vec3)

  /** Pointer-down at floor point `hit`: the couch grabs, the page hears the drag start. */
  function PointerDown(p: Page, g: Grip, hit: Vec3): (r: (Page, Grip))
    ensures r.1.dragging && r.0 == DragStart(p)
    ensures hit.x + r.1.offset.x == g.groupPosition.x && hit.z + r.1.offset.z == g.groupPosition.z
  {
    var offset := Vec3(g.groupPosition.x - hit.x, g.groupPosition.y - hit.y, g.groupPosition.z - hit.z);
    (DragStart(p), g.(dragging := true, offset := offset))
  }

  /** A pointer-up whose `delta` is at most 2 pixels counts as a click. */
  const ClickSlackPx: real := 2.0

  /** The `delta` a pointer-up event carries. @react-three/fiber measures
      the pointer's travel only for click-type events (click, double click,
      context menu) and leaves 0 on every other one, so a pointer-up always
      carries 0, however far the pointer moved. That library is not part of
      this model; the value is taken as its event code states it. */
  const PointerUpDelta: real := 0.0

  /** The pointer-up handler for an event carrying `delta`: the drag always
      ends; a `delta` of at most 2 pixels also shows the badge and opens the
      panel. */
  function PointerUp(p: Page, g: Grip, delta: real): (r: (Page, Grip))
    ensures !r.1.dragging && !r.0.isDragging
    ensures delta <= ClickSlackPx ==> r.0 == ModelClick(DragEnd(p)).(isCouchEditVisible := true)
    ensures delta > ClickSlackPx ==> r.0 == DragEnd(p)
  {
    var ended := DragEnd(p);
    var page := if delta <= ClickSlackPx then ModelClick(ended.(isCouchEditVisible := true)) else ended;
    (page, g.(dragging := false))
  }

  /** Pointer-move to floor point `hit`: while dragging, the hit point plus
      the grab offset is reported with y pinned to 0 and no clamping at all. */
  function PointerMove(g: Grip, hit: Vec3): (r: Option<Vec3>)
    ensures r.Some? <==> g.dragging
    ensures r.Some? ==> r.value == Vec3(hit.x + g.offset.x, 0.0, hit.z + g.offset.z)
  {
    if g.dragging then Some(Vec3(hit.x + g.offset.x, 0.0, hit.z + g.offset.z)) else None
  }

  /** Nothing keeps a dragged couch on the floor: any x can be reported. */
  lemma MoveIsUnclamped(g: Grip, hit: Vec3, x: real)
    requires g.dragging
    ensures PointerMove(g, Vec3(x - g.offset.x, hit.y, hit.z)).value.x == x
  {
  }

  /** The couch group's own miss handler: it hides the badge. The page also
      runs its canvas handler on the same click; see `CanvasMiss`. */
  function PointerMissed(p: Page): (r: Page)
    ensures !r.isCouchEditVisible && r.(isCouchEditVisible := p.isCouchEditVisible) == p
  {
    p.(isCouchEditVisible := false)
  }

  /** A click on empty canvas as the page sees it: the couch group's miss
      handler hides the badge, and the same click reaches the canvas
      wrapper's click handler, which closes the panel and collapses the
      accordion. */
  function CanvasMiss(p: Page): (r: Page)
    ensures r.menu == Closed && r.activeAccordion == "" && !r.isCouchEditVisible
    ensures r.(menu := p.menu, activeAccordion := p.activeAccordion,
               isCouchEditVisible := p.isCouchEditVisible) == p
  {
    CanvasClick(PointerMissed(p))
  }

  /** The release of a press on the couch as the page sees it: the couch's
      pointer-up, then the DOM click that every press and release on the
      canvas ends with. That click reaches the canvas wrapper's handler,
      since the couch group's `stopPropagation` only stops propagation
      among scene objects. React renders between the two events, so the
      handler sees the panel the pointer-up opened. The pointer-up carries
      `PointerUpDelta`, so every release, a drag's included, counts as a
      click and shows the badge. */
  function CouchRelease(p: Page, g: Grip): (r: Page)
    ensures r.menu == Closed && r.activeAccordion == ""
    ensures !r.isDragging && OrbitControlsShown(r) && r.isCouchEditVisible
    ensures r.(menu := p.menu, activeAccordion := p.activeAccordion,
               isCouchEditVisible := p.isCouchEditVisible, isDragging := p.isDragging) == p
  {
    CanvasClick(PointerUp(p, g, PointerUpDelta).0)
  }

  /** The release as evidently intended, after the pointer travelled
      `travel` pixels: only a short travel is a click, a click that hits the
      couch stays with the couch, and the canvas handler is not run. */
  function IntendedCouchRelease(p: Page, g: Grip, travel: real): (r: Page)
    ensures travel <= ClickSlackPx ==>
      r.menu == Open && r.activeAccordion == CouchAccordion && r.isCouchEditVisible
    ensures travel > ClickSlackPx ==>
      r.menu == p.menu && r.activeAccordion == p.activeAccordion
      && r.isCouchEditVisible == p.isCouchEditVisible
    ensures !r.isDragging && OrbitControlsShown(r)
  {
    PointerUp(p, g, travel).0
  }

  /** As written, a click on the couch leaves the panel closed and collapsed:
      the canvas handler undoes what the pointer-up opened. Only the badge
      stays shown. */
  lemma CouchClickClosesPanel(p: Page, g: Grip, hit: Vec3)
    ensures var down := PointerDown(p, g, hit);
      var up := CouchRelease(down.0, down.1);
      && up.menu == Closed && up.activeAccordion == ""
      && up.isCouchEditVisible && up.menu != PointerUp(down.0, down.1, PointerUpDelta).0.menu
  {
  }

  /** After a click that opened the panel, a click on empty canvas closes it,
      collapses the accordion and hides the badge: the page is back where the
      press found it, but with the drag ended. */
  lemma MissUndoesIntendedClick(p: Page, g: Grip, hit: Vec3, delta: real)
    requires delta <= ClickSlackPx
    ensures var down := PointerDown(p, g, hit);
      CanvasMiss(IntendedCouchRelease(down.0, down.1, delta))
        == DragEnd(p).(menu := Closed, activeAccordion := "", isCouchEditVisible := false)
  {
  }

  /** How the couch badge is drawn: full or half size, opaque or transparent,
      and whether it catches the pointer. */
  datatype BadgeStyle = BadgeStyle(fullSize: bool, shown: bool, takesPointer: bool)

  /** The badge style as written. Size and opacity follow the badge flag,
      but both pointer-events values carry their quotes inside the string
      (the six-character `'auto'` and `'none'`), which no stylesheet
      accepts: the declaration is dropped and the badge keeps the default,
      catching the pointer even while transparent. */
  function BadgeStyleFor(isEditVisible: bool): (st: BadgeStyle)
    ensures st.shown <==> isEditVisible
    ensures st.fullSize <==> isEditVisible
    ensures st.takesPointer
  {
    BadgeStyle(isEditVisible, isEditVisible, true)
  }

  /** The evident intent: a hidden badge lets the pointer through. */
  function IntendedBadgeStyleFor(isEditVisible: bool): (st: BadgeStyle)
    ensures st.shown <==> isEditVisible
    ensures st.fullSize <==> isEditVisible
    ensures st.takesPointer <==> isEditVisible
  {
    BadgeStyle(isEditVisible, isEditVisible, isEditVisible)
  }

  /** A click on the spot where the badge is drawn with style `st`: the edit
      click when the badge catches the pointer, nothing otherwise. */
  function BadgeClick(p: Page, st: BadgeStyle): (r: Page)
    ensures st.takesPointer ==> r == EditClick(p)
    ensures !st.takesPointer ==> r == p
  {
    if st.takesPointer then EditClick(p) else p
  }

  /** As written, the invisible badge still opens the panel on the couch's
      entry when its empty spot is clicked. */
  lemma HiddenBadgeStillOpensPanel(p: Page)
    requires !p.isCouchEditVisible && p.menu == Closed
    ensures !BadgeStyleFor(p.isCouchEditVisible).shown
    ensures BadgeClick(p, BadgeStyleFor(p.isCouchEditVisible)).menu == Open
  {
  }

  /** With the intended style only a shown badge reacts: a click on a hidden
      one changes nothing. */
  lemma IntendedBadgeClickNeedsShownBadge(p: Page)
    ensures BadgeClick(p, IntendedBadgeStyleFor(p.isCouchEditVisible)) ==
      if p.isCouchEditVisible then EditClick(p) else p
  {
  }

  /** The couch's length per size word, as the couch spells it out. */
  const CouchLengths: map<string, real> := map["small" := 2.4, "medium" := 3.0, "large" := 3.6, "xl" := 4.2]

  /** The couch's own length table is the shared size-to-length table. */
  lemma CouchLengthsMatchOptions()
    ensures CouchLengths == FurnitureOptions.SizeToLength
  {
  }

  /** With the intended release, press and release without travel on the
      couch ends the drag (so the orbit controls are back), shows the badge
      and leaves the panel open on the couch's entry. */
  lemma ClickOpensCouchEntry(p: Page, g: Grip, hit: Vec3, delta: real)
    requires delta <= ClickSlackPx
    ensures var down := PointerDown(p, g, hit);
      var up := IntendedCouchRelease(down.0, down.1, delta);
      && OrbitControlsShown(up) && up.isCouchEditVisible
      && up.menu == Open && up.activeAccordion == CouchAccordion
  {
  }

  /** With the intended release, a real drag leaves the panel and the badge
      as they were and the couch where it was last reported. */
  lemma DragKeepsMenu(p: Page, g: Grip, hit: Vec3, hit2: Vec3, travel: real)
    requires travel > ClickSlackPx
    ensures var down := PointerDown(p, g, hit);
      var moved := Drag(down.0, PointerMove(down.1, hit2).value);
      var up := IntendedCouchRelease(moved, down.1, travel);
      && up.menu == p.menu && up.activeAccordion == p.activeAccordion
      && up.isCouchEditVisible == p.isCouchEditVisible
      && up.position == PointerMove(down.1, hit2).value
      && OrbitControlsShown(up)
  {
  }

  /** As written, the end of a drag is taken for a click: its pointer-up
      opens the couch's entry and shows the badge, whatever the badge was,
      and the canvas click then closes and collapses the panel. The couch
      stays where it was last reported. */
  lemma DragReleaseShowsBadge(p: Page, g: Grip, hit: Vec3, hit2: Vec3)
    ensures var down := PointerDown(p, g, hit);
      var moved := Drag(down.0, PointerMove(down.1, hit2).value);
      var released := PointerUp(moved, down.1, PointerUpDelta).0;
      var up := CouchRelease(moved, down.1);
      && released.menu == Open && released.activeAccordion == CouchAccordion
      && up.menu == Closed && up.activeAccordion == ""
      && up.isCouchEditVisible
      && up.position == PointerMove(down.1, hit2).value
  {
  }
}

=== FILE: desktop_navbar.dfy ===
/** The desktop toolbar's shared-state updates (src/components/desktop/Navbar.tsx):
    guarded, copy-on-write updates that never touch the previous state. */
module DesktopNavbar {
  import opened Wrappers
  import opened SharedState

  /** The colour number for a menu label: "Colorfull" is 1, anything else 2. */
  function ColorForLabel(caption: string): (c: int)
    ensures c == 1 <==> caption == "Colorfull"
    ensures c == 1 || c == 2
  {
    if caption == "Colorfull" then 1 else 2
  }

  /** The colour menu's labels, in menu order. */
  const MenuLabels: seq<string> := ["Dark", "Colorfull"]

  /** The two menu entries pick the two colour numbers, one each: the first
      entry ("Dark") gives 2 and the second gives 1. */
  lemma MenuLabelsPickEachColor()
    ensures ColorForLabel(MenuLabels[0]) == 2 && ColorForLabel(MenuLabels[1]) == 1
  {
  }

  predicate Rendered(selected: string) {
    selected != ""
  }

  /** Both updates act only on a non-empty selection that names an entry. */
  predicate ValidSelection(s: State, selected: string) {
    selected != "" && selected in s
  }

  /** Set the selected entry's colour, keeping its other properties. Without
      a valid selection the state comes back unchanged. */
  function ColorClick(s: State, selected: string, color: int): (r: Update)
    ensures r.previousAfter == s
    ensures !ValidSelection(s, selected) ==> r.next == s
    ensures r.next.Keys == s.Keys
    ensures forall k :: k in s && k != selected ==> r.next[k] == s[k]
    ensures ValidSelection(s, selected) ==>
      && r.next[selected].Keys == s[selected].Keys + {"color"}
      && r.next[selected]["color"] == Num(color)
      && forall p :: p in s[selected] && p != "color" ==> r.next[selected][p] == s[selected][p]
  {
    if !ValidSelection(s, selected) then Update(s, s)
    else Update(s[selected := s[selected]["color" := Num(color)]], s)
  }

  /** Rotate a copy of the selected entry's rotation array by one wrap step
      on its y angle (`rotation[1]`). Without a valid selection the state
      comes back unchanged; None is the TypeError of spreading an absent
      rotation. */
  function Rotate(s: State, selected: string): (r: Option<Update>)
    ensures r.None? <==> ValidSelection(s, selected) && !HasRotation(s[selected])
    ensures r.Some? ==> r.value.previousAfter == s && r.value.next.Keys == s.Keys
    ensures !ValidSelection(s, selected) ==> r == Some(Update(s, s))
    ensures r.Some? ==> forall k :: k in s && k != selected ==> r.value.next[k] == s[k]
    ensures r.Some? && ValidSelection(s, selected) ==>
      var was := s[selected]["rotation"];
      r.value.next[selected] == s[selected]["rotation" := Euler(was.x, WrapQuarterTurn(was.y), was.z)]
  {
    if !ValidSelection(s, selected) then Some(Update(s, s))
    else if !HasRotation(s[selected]) then None
    else
      var rot := s[selected]["rotation"];
      Some(Update(s[selected := s[selected]["rotation" := Euler(rot.x, WrapQuarterTurn(rot.y), rot.z)]], s))
  }

  /** A rotate keeps an angle of [-pi, pi) inside that range and keeps the colour. */
  lemma RotateStaysInRange(s: State, selected: string)
    requires ValidSelection(s, selected) && HasRotation(s[selected])
    requires -2 <= s[selected]["rotation"].y <= 1
    ensures var e := Rotate(s, selected).value.next[selected];
      && HasRotation(e) && -2 <= e["rotation"].y <= 1
      && e["rotation"].x == s[selected]["rotation"].x
      && e["rotation"].z == s[selected]["rotation"].z
      && ("color" in s[selected] ==> "color" in e && e["color"] == s[selected]["color"])
  {
  }

  /** Four rotates bring an angle of [-pi, pi) back: the state is as before. */
  lemma FourRotatesRestore(s: State, selected: string)
    requires ValidSelection(s, selected) && HasRotation(s[selected])
    requires -2 <= s[selected]["rotation"].y <= 1
    ensures var r1 := Rotate(s, selected).value.next;
      var r2 := Rotate(r1, selected).value.next;
      var r3 := Rotate(r2, selected).value.next;
      Rotate(r3, selected).value.next == s
  {
    var e := s[selected];
    var rot := e["rotation"];
    var y1 := WrapQuarterTurn(rot.y);
    var y2 := WrapQuarterTurn(y1);
    var y3 := WrapQuarterTurn(y2);
    WrapHasPeriodFour(rot.y);
    var r1 := RotateStep(s, selected, e, rot.x, rot.y, rot.z);
    var r2 := RotateStep(r1, selected, e, rot.x, y1, rot.z);
    var r3 := RotateStep(r2, selected, e, rot.x, y2, rot.z);
    var r4 := RotateStep(r3, selected, e, rot.x, y3, rot.z);
    assert r4[selected] == e;
  }

  /** One rotate of a state whose selected entry is `e` with the rotation
      `[x, y, z]`. */
  lemma RotateStep(s: State, selected: string, e: Entry, x: int, y: int, z: int) returns (next: State)
    requires ValidSelection(s, selected) && "rotation" in e
    requires s[selected] == e["rotation" := Euler(x, y, z)]
    ensures Rotate(s, selected) == Some(Update(next, s))
    ensures next == s[selected := e["rotation" := Euler(x, WrapQuarterTurn(y), z)]]
  {
    next := Rotate(s, selected).value.next;
    assert e["rotation" := Euler(x, y, z)]["rotation" := Euler(x, WrapQuarterTurn(y), z)]
        == e["rotation" := Euler(x, WrapQuarterTurn(y), z)];
  }

  /** After a colour change the rotation is still there, so a rotate succeeds
      and keeps the new colour. */
  lemma RotateSucceedsAfterColorClick(s: State, selected: string, color: int)
    requires ValidSelection(s, selected) && HasRotation(s[selected])
    ensures var colored := ColorClick(s, selected, color).next;
      var rotated := Rotate(colored, selected);
      rotated.Some? && rotated.value.next[selected]["color"] == Num(color)
  {
  }

  /** React's development double call: the updater runs twice on the same
      previous state. Both updates leave that state alone, so the second
      call computes exactly what the first did: one step, not two. */
  lemma StrictModeRotatesOnce(s: State, selected: string, color: int)
    ensures Rotate(Rotate(s, selected).GetOr(Update(s, s)).previousAfter, selected) == Rotate(s, selected)
    ensures ColorClick(ColorClick(s, selected, color).previousAfter, selected, color) == ColorClick(s, selected, color)
  {
  }
}

=== FILE: drag_controller.dfy ===
/** The pointer handling of one furniture item (src/components/FurnitureItem.tsx):
    pointer-down grabs the item, moves drag its clamped centre over the floor,
    pointer-up or pointer-out lets go. Ray casting is left to the caller: each
    event carries the point where the pointer ray meets the floor plane. */
module DragController {
  import opened Types
  import opened Boundary

  /** What the item keeps between events: whether it is being dragged, the
      offset from the grab point to its centre, and the position its scene
      group currently shows. */
  datatype Grip = Grip(dragging: bool, offset: Vec3, shown: Vec3)

  /** Calls the item makes to its parent. */
  datatype Notice = DragStarted | DragEnded | Dragged(position: Vec3) | EditVisible(visible: bool) | EditClicked

  datatype Reaction = Reaction(grip: Grip, notices: seq<Notice>)

  function Minus(a: Vec3, b: Vec3): Vec3 { Vec3(a.x - b.x, a.y - b.y, a.z - b.z) }
  function Plus(a: Vec3, b: Vec3): Vec3 { Vec3(a.x + b.x, a.y + b.y, a.z + b.z) }

  /** Pointer-down at floor point `hit`: start dragging, remember the grab
      offset, tell the parent once. */
  function PointerDown(g: Grip, hit: Vec3): (r: Reaction)
    ensures r.grip.dragging && r.notices == [DragStarted]
    ensures Plus(hit, r.grip.offset) == g.shown
    ensures r.grip.shown == g.shown
  {
    Reaction(Grip(true, Minus(g.shown, hit), g.shown), [DragStarted])
  }

  /** Pointer-up: stop dragging and tell the parent. */
  function PointerUp(g: Grip): (r: Reaction)
    ensures !r.grip.dragging && r.notices == [DragEnded]
    ensures r.grip.(dragging := g.dragging) == g
  {
    Reaction(g.(dragging := false), [DragEnded])
  }

  /** Pointer-out: stop dragging without telling the parent. */
  function PointerOut(g: Grip): (r: Reaction)
    ensures !r.grip.dragging && r.notices == []
    ensures r.grip.(dragging := g.dragging) == g
  {
    Reaction(g.(dragging := false), [])
  }

  /** Pointer-move to floor point `hit`. Only while dragging: the candidate
      centre is the hit point plus the grab offset, x and z are clamped into
      the box, y is pinned to the floor, and that same position is both shown
      at once and reported to the parent. */
  function PointerMove(g: Grip, hit: Vec3, box: Bounds): (r: Reaction)
    ensures !g.dragging ==> r == Reaction(g, [])
    ensures g.dragging ==>
      && |r.notices| == 1
      && r.notices[0] == Dragged(r.grip.shown)
      && r.grip.shown.y == 0.0
      && r.grip.shown.x == Clamp(box.minX, box.maxX, hit.x + g.offset.x)
      && r.grip.shown.z == Clamp(box.minZ, box.maxZ, hit.z + g.offset.z)
      && r.grip.(shown := g.shown) == g
    ensures g.dragging && box.minX <= box.maxX && box.minZ <= box.maxZ ==>
      box.minX <= r.grip.shown.x <= box.maxX && box.minZ <= r.grip.shown.z <= box.maxZ
  {
    if g.dragging then
      var candidate := Plus(hit, g.offset);
      var placed := Vec3(Clamp(box.minX, box.maxX, candidate.x), 0.0, Clamp(box.minZ, box.maxZ, candidate.z));
      Reaction(g.(shown := placed), [Dragged(placed)])
    else
      Reaction(g, [])
  }

  /** A click that reaches no object hides this item's edit badge. */
  function PointerMissed(g: Grip): (r: Reaction)
    ensures r.grip == g && r.notices == [EditVisible(false)]
  {
    Reaction(g, [EditVisible(false)])
  }

  /** How the badge is drawn: fully visible and clickable, or transparent,
      click-through and behind the page. */
  datatype BadgeStyle = BadgeStyle(visible: bool, takesPointer: bool, behind: bool)

  /** The badge style for the current dialog state. */
  function BadgeStyleFor(isDialogOpen: bool): (st: BadgeStyle)
    ensures st.visible == st.takesPointer == !st.behind
    ensures st.visible <==> !isDialogOpen
  {
    if isDialogOpen then BadgeStyle(false, false, true) else BadgeStyle(true, true, false)
  }

  /** A click on the badge: the edit click reaches the parent exactly when
      the badge catches the pointer. */
  function BadgeClick(isDialogOpen: bool): (r: seq<Notice>)
    ensures BadgeStyleFor(isDialogOpen).takesPointer ==> r == [EditClicked]
    ensures !BadgeStyleFor(isDialogOpen).takesPointer ==> r == []
  {
    if isDialogOpen then [] else [EditClicked]
  }

  /** No rendered page passes `isDialogOpen` (its one call site is commented
      out), so the prop reads `undefined`, which is falsy: the badge is
      always drawn, always clickable, and a click always reaches the parent. */
  lemma UnsetDialogPropKeepsBadgeLive()
    ensures BadgeStyleFor(false) == BadgeStyle(true, true, false)
    ensures BadgeClick(false) == [EditClicked]
    ensures BadgeClick(true) == []
  {
  }

  /** A missed click only hides the badge: a drag in progress carries on
      exactly as before, and so does its release. */
  lemma MissLeavesDragAlone(g: Grip, hit: Vec3, box: Bounds)
    ensures PointerMove(PointerMissed(g).grip, hit, box) == PointerMove(g, hit, box)
    ensures PointerUp(PointerMissed(g).grip) == PointerUp(g)
    ensures EditVisible(false) in PointerMissed(g).notices
  {
  }

  /** Grabbing an item and moving the pointer back onto the grab point puts
      the item exactly where it was, provided it stood on the floor inside
      its box: the grab offset removes any jump. */
  lemma NoJumpAtGrabPoint(g: Grip, hit: Vec3, box: Bounds)
    requires g.shown.y == 0.0
    requires box.minX <= g.shown.x <= box.maxX && box.minZ <= g.shown.z <= box.maxZ
    ensures var moved := PointerMove(PointerDown(g, hit).grip, hit, box);
      moved.notices == [Dragged(g.shown)] && moved.grip.shown == g.shown
  {
    var down := PointerDown(g, hit).grip;
    assert hit.x + down.offset.x == g.shown.x;
    assert hit.z + down.offset.z == g.shown.z;
  }

  /** After the drag ends, by pointer-up or pointer-out, moves report nothing. */
  lemma MovesAfterReleaseAreSilent(g: Grip, hit: Vec3, box: Bounds, byPointerUp: bool)
    ensures var released := if byPointerUp then PointerUp(g).grip else PointerOut(g).grip;
      PointerMove(released, hit, box).notices == []
  {
  }
}

=== FILE: floating_menu.dfy ===
/** The side panel listing every item (src/components/FloatingMenu.tsx): an
    accordion with one entry per item, the per-item commands, the "#n"
    ordinal in each entry's title, and the remove confirmation. Commands go
    to the page as callbacks; here they are returned as values. */
module FloatingMenu {
  import opened Wrappers
  import opened Types

  /** A callback the panel invokes, with the id of the item it is about. */
  datatype Command =
    | Rotate(id: string)
    | SetColor(id: string, color: string)
    | SetSize(id: string, size: string)
    | Duplicate(id: string)
    | Remove(id: string)
    | SetActiveAccordion(value: string)

  /** The panel's own state: whether the remove confirmation is open, and the
      id it was opened for. */
  datatype Panel = Panel(removeDialogOpen: bool, pendingRemoval: Option<string>)

  datatype Response = Response(panel: Panel, commands: seq<Command>)

  /** A JavaScript string is truthy when it is not empty. */
  predicate HasPendingId(p: Panel) {
    p.pendingRemoval.Some? && p.pendingRemoval.value != ""
  }

  /** The remove button of an entry: remember its item and ask for confirmation. */
  function RequestRemove(p: Panel, id: string): (r: Panel)
    ensures r.removeDialogOpen && r.pendingRemoval == Some(id)
  {
    Panel(true, Some(id))
  }

  /** Confirming the removal. Without a pending id nothing happens; with one,
      the item is removed, the confirmation closes, the pending id is
      cleared and the accordion collapses. */
  function HandleRemove(p: Panel): (r: Response)
    ensures !HasPendingId(p) ==> r == Response(p, [])
    ensures HasPendingId(p) ==>
      && r.panel == Panel(false, None)
      && r.commands == [Remove(p.pendingRemoval.value), SetActiveAccordion("")]
  {
    if HasPendingId(p) then
      Response(Panel(false, None), [Remove(p.pendingRemoval.value), SetActiveAccordion("")])
    else
      Response(p, [])
  }

  /** The remove button followed by the confirmation removes exactly the
      entry's item, provided it has a non-empty id. */
  lemma RemoveButtonThenConfirm(p: Panel, id: string)
    requires id != ""
    ensures HandleRemove(RequestRemove(p, id)).commands[0] == Remove(id)
    ensures !HandleRemove(RequestRemove(p, id)).panel.removeDialogOpen
  {
  }

  /** A second confirmation after a removal does nothing. */
  lemma SecondConfirmIsNoOp(p: Panel)
    ensures var once := HandleRemove(p).panel;
      HandleRemove(once) == Response(once, [])
  {
  }

  /** What a user does inside one item's entry. */
  datatype EntryAction = PickColor(color: string) | PickSize(size: string) | PressRotate | PressDuplicate

  /** The id a command is about, "" for the accordion command. */
  function Target(c: Command): string {
    match c
    case Rotate(id) => id
    case SetColor(id, _) => id
    case SetSize(id, _) => id
    case Duplicate(id) => id
    case Remove(id) => id
    case SetActiveAccordion(_) => ""
  }

  /** The command an entry issues: always about the entry's own item, and
      carrying the picked colour or size unchanged. */
  function Issue(item: FurnitureItem, a: EntryAction): (c: Command)
    ensures Target(c) == item.id
    ensures a.PickColor? ==> c == SetColor(item.id, a.color)
    ensures a.PickSize? ==> c == SetSize(item.id, a.size)
    ensures !c.Remove? && !c.SetActiveAccordion?
  {
    match a
    case PickColor(color) => SetColor(item.id, color)
    case PickSize(size) => SetSize(item.id, size)
    case PressRotate => Rotate(item.id)
    case PressDuplicate => Duplicate(item.id)
  }

  /** With unique ids, commands issued from two different entries are about
      two different items. */
  lemma EntriesTargetTheirOwnItems(items: seq<FurnitureItem>, i: int, j: int, a: EntryAction, b: EntryAction)
    requires UniqueIds(items) && 0 <= i < |items| && 0 <= j < |items| && i != j
    ensures Target(Issue(items[i], a)) != Target(Issue(items[j], b))
  {
  }

  /** The items of one kind, in list order. */
  function SameKind(items: seq<FurnitureItem>, kind: string): (r: seq<FurnitureItem>)
    ensures |r| <= |items|
    ensures forall it :: it in r <==> it in items && it.kind == kind
  {
    if |items| == 0 then []
    else
      var rest := SameKind(items[1..], kind);
      assert forall it :: it in items <==> it == items[0] || it in items[1..];
      if items[0].kind == kind then [items[0]] + rest else rest
  }

  /** The items of `kind` keep their list order. */
  lemma {:induction false} SameKindKeepsOrder(items: seq<FurnitureItem>, kind: string)
    ensures IsSubsequence(SameKind(items, kind), items)
  {
    if |items| > 0 {
      SameKindKeepsOrder(items[1..], kind);
      SubsequenceOfTail(SameKind(items[1..], kind), items);
    }
  }

  /** The items of `kind` keep their multiplicity; every other item is gone. */
  lemma {:induction false} SameKindCounts(items: seq<FurnitureItem>, kind: string, it: FurnitureItem)
    ensures multiset(SameKind(items, kind))[it] == if it.kind == kind then multiset(items)[it] else 0
  {
    if |items| > 0 {
      SameKindCounts(items[1..], kind, it);
      assert items == [items[0]] + items[1..];
      assert multiset(items) == multiset{items[0]} + multiset(items[1..]);
      var rest := SameKind(items[1..], kind);
      if items[0].kind == kind {
        assert SameKind(items, kind) == [items[0]] + rest;
        assert multiset([items[0]] + rest) == multiset{items[0]} + multiset(rest);
      } else {
        assert SameKind(items, kind) == rest;
      }
    }
  }

  /** The "#n" in an entry's title: one plus the position of the item among
      the items of its kind. */
  function Ordinal(items: seq<FurnitureItem>, item: FurnitureItem): int {
    FindIndex(SameKind(items, item.kind), item.id) + 1
  }

  /** Every listed item gets an ordinal between 1 and the number of items of its kind. */
  lemma OrdinalInRange(items: seq<FurnitureItem>, item: FurnitureItem)
    requires item in items
    ensures 1 <= Ordinal(items, item) <= |SameKind(items, item.kind)|
  {
    var s := SameKind(items, item.kind);
    assert item in s;
    var i :| 0 <= i < |s| && s[i] == item;
    assert s[i].id == item.id;
  }

  /** Two listed items of the same kind with different ids get different ordinals. */
  lemma OrdinalsDistinct(items: seq<FurnitureItem>, a: FurnitureItem, b: FurnitureItem)
    requires a in items && b in items && a.kind == b.kind && a.id != b.id
    ensures Ordinal(items, a) != Ordinal(items, b)
  {
    var ia :| 0 <= ia < |items| && items[ia] == a;
    var ib :| 0 <= ib < |items| && items[ib] == b;
    FoundAmongKind(items, ia);
    FoundAmongKind(items, ib);
    var s := SameKind(items, a.kind);
    var ka := FindIndex(s, a.id);
    var kb := FindIndex(s, b.id);
    assert s[ka].id != s[kb].id;
  }

  /** Filtering a list with unique ids keeps the ids unique. */
  lemma {:induction false} SameKindKeepsUniqueIds(items: seq<FurnitureItem>, kind: string)
    requires UniqueIds(items)
    ensures UniqueIds(SameKind(items, kind))
  {
    if |items| > 0 {
      assert UniqueIds(items[1..]);
      SameKindKeepsUniqueIds(items[1..], kind);
      var rest := SameKind(items[1..], kind);
      forall it | it in rest
        ensures it.id != items[0].id
      {
        var j :| 0 <= j < |items[1..]| && items[1..][j] == it;
        assert items[j + 1] == it;
      }
    }
  }

  /** With unique ids the ordinals of one kind are exactly 1, 2, ..., k in list order. */
  lemma OrdinalsNumberTheKind(items: seq<FurnitureItem>, kind: string, j: int)
    requires UniqueIds(items)
    requires 0 <= j < |SameKind(items, kind)|
    ensures SameKind(items, kind)[j].kind == kind
    ensures Ordinal(items, SameKind(items, kind)[j]) == j + 1
  {
    var s := SameKind(items, kind);
    assert s[j] in s;
    SameKindKeepsUniqueIds(items, kind);
    FindIndexOfUniqueId(s, j);
  }

  /** Putting an item with another id in front shifts a found index by one. */
  lemma FindIndexBehindHead(x: FurnitureItem, rest: seq<FurnitureItem>, id: string)
    requires x.id != id && FindIndex(rest, id) >= 0
    ensures FindIndex([x] + rest, id) == FindIndex(rest, id) + 1
  {
    assert ([x] + rest)[1..] == rest;
  }

  /** An item of `kind` listed in `items` is found among the items of its kind. */
  lemma FoundAmongKind(items: seq<FurnitureItem>, i: int)
    requires 0 <= i < |items|
    ensures FindIndex(SameKind(items, items[i].kind), items[i].id) >= 0
  {
    var s := SameKind(items, items[i].kind);
    assert items[i] in s;
    var k :| 0 <= k < |s| && s[k] == items[i];
    assert s[k].id == items[i].id;
  }

  /** With unique ids, of two items of one kind the one listed earlier gets
      the smaller ordinal: the ordinals follow the list order. */
  lemma {:induction false} OrdinalsFollowListOrder(items: seq<FurnitureItem>, i: int, j: int)
    requires UniqueIds(items)
    requires 0 <= i < j < |items| && items[i].kind == items[j].kind
    ensures Ordinal(items, items[i]) < Ordinal(items, items[j])
  {
    if i == 0 {
      HeadHasFirstOrdinal(items, j);
    } else {
      var tail := items[1..];
      assert UniqueIds(tail);
      assert tail[i - 1] == items[i] && tail[j - 1] == items[j];
      OrdinalsFollowListOrder(tail, i - 1, j - 1);
      OrdinalBehindHead(items, i);
      OrdinalBehindHead(items, j);
    }
  }

  /** The head item gets "#1", and any later item of its kind a larger number. */
  lemma HeadHasFirstOrdinal(items: seq<FurnitureItem>, j: int)
    requires UniqueIds(items)
    requires 0 < j < |items| && items[0].kind == items[j].kind
    ensures Ordinal(items, items[0]) == 1 < Ordinal(items, items[j])
  {
    var kind := items[0].kind;
    var s := SameKind(items, kind);
    assert s == [items[0]] + SameKind(items[1..], kind);
    FoundAmongKind(items, j);
    assert s[0].id != items[j].id;
  }

  /** A later item's ordinal is its ordinal in the tail, plus one when the
      head is of the same kind. */
  lemma OrdinalBehindHead(items: seq<FurnitureItem>, i: int)
    requires UniqueIds(items) && 0 < i < |items|
    ensures Ordinal(items, items[i]) ==
      Ordinal(items[1..], items[i]) + (if items[0].kind == items[i].kind then 1 else 0)
  {
    var kind := items[i].kind;
    var tail := items[1..];
    var rest := SameKind(tail, kind);
    assert tail[i - 1] == items[i];
    if items[0].kind == kind {
      FoundAmongKind(tail, i - 1);
      assert SameKind(items, kind) == [items[0]] + rest;
      assert items[0].id != items[i].id;
      FindIndexBehindHead(items[0], rest, items[i].id);
    } else {
      assert SameKind(items, kind) == rest;
    }
  }

  /** An entry is expanded when the accordion's single value is its item's id. */
  predicate Expanded(item: FurnitureItem, activeAccordion: string) {
    item.id == activeAccordion
  }

  /** With unique ids at most one entry is expanded at a time. */
  lemma AtMostOneExpanded(items: seq<FurnitureItem>, activeAccordion: string, i: int, j: int)
    requires UniqueIds(items) && 0 <= i < |items| && 0 <= j < |items|
    requires Expanded(items[i], activeAccordion) && Expanded(items[j], activeAccordion)
    ensures i == j
  {
  }
}

=== FILE: floating_navigation.dfy ===
/** The bottom bar (src/components/FloatingNavigation.tsx): Browse, Inspire
    and Room Settings each hide the couch's edit badge and then open one
    dialog. */
module FloatingNavigation {

  datatype Dialog = FurnitureBrowser | InspireDialog | RoomSettings

  datatype NavState = NavState(
    isFurnitureBrowserOpen: bool,
    isInspireDialogOpen: bool,
    isRoomSettingsOpen: bool,
    isCouchEditVisible: bool)

  /** The setter calls one button click makes, in order. */
  datatype Call = SetCouchEditVisible(visible: bool) | SetDialogOpen(dialog: Dialog, open: bool)

  function IsOpen(s: NavState, d: Dialog): bool {
    match d
    case FurnitureBrowser => s.isFurnitureBrowserOpen
    case InspireDialog => s.isInspireDialogOpen
    case RoomSettings => s.isRoomSettingsOpen
  }

  /** The calls of the button that opens `d`: first hide the badge, then open `d`. */
  function ButtonCalls(d: Dialog): (calls: seq<Call>)
    ensures |calls| == 2 && calls[0] == SetCouchEditVisible(false)
    ensures calls[1].SetDialogOpen? && calls[1].dialog == d && calls[1].open
  {
    [SetCouchEditVisible(false), SetDialogOpen(d, true)]
  }

  function Perform(s: NavState, c: Call): NavState {
    match c
    case SetCouchEditVisible(v) => s.(isCouchEditVisible := v)
    case SetDialogOpen(FurnitureBrowser, o) => s.(isFurnitureBrowserOpen := o)
    case SetDialogOpen(InspireDialog, o) => s.(isInspireDialogOpen := o)
    case SetDialogOpen(RoomSettings, o) => s.(isRoomSettingsOpen := o)
  }

  function PerformAll(s: NavState, calls: seq<Call>): NavState
    decreases |calls|
  {
    if |calls| == 0 then s else PerformAll(Perform(s, calls[0]), calls[1..])
  }

  /** A click on the button for `d`: the badge is hidden, `d` is open and
      every other dialog keeps its flag. */
  function HandleButtonClick(s: NavState, d: Dialog): (r: NavState)
    ensures !r.isCouchEditVisible
    ensures IsOpen(r, d)
    ensures forall o :: o != d ==> IsOpen(r, o) == IsOpen(s, o)
  {
    PerformAll(s, ButtonCalls(d))
  }

  /** No button closes a dialog. */
  lemma ButtonsNeverCloseDialogs(s: NavState, d: Dialog, o: Dialog)
    requires IsOpen(s, o)
    ensures IsOpen(HandleButtonClick(s, d), o)
  {
  }

  /** Clicking the same button again changes nothing. */
  lemma ButtonClickIdempotent(s: NavState, d: Dialog)
    ensures HandleButtonClick(HandleButtonClick(s, d), d) == HandleButtonClick(s, d)
  {
  }
}

=== FILE: furniture_options.dfy ===
/** The option tables shared by the side panel and the placement code
    (utils/furnitureOptions.ts): three colour swatches, four sizes and the
    couch length belonging to each size. */
module FurnitureOptions {
  import opened Wrappers

  /** A colour swatch: `title` is the label shown, `swatch` the CSS class drawn, `value` the colour stored on the item. */
  datatype ColorOption = ColorOption(title: string, swatch: string, value: string, name: string)

  /** A size radio button: `value` is the size word stored on the item. */
  datatype SizeOption = SizeOption(title: string, measurement: string, value: string)

  const ColorOptions: seq<ColorOption> := [
    ColorOption("Sage", "bg-[#8A9A5B]", "#8A9A5B", "Herbal Sage"),
    ColorOption("Taupe", "bg-[#8B7E66]", "#8B7E66", "Earthy Taupe"),
    ColorOption("Slate", "bg-[#708090]", "#708090", "Stormy Slate")
  ]

  const SizeOptions: seq<SizeOption> := [
    SizeOption("Small", "160 cm", "small"),
    SizeOption("Medium", "200 cm", "medium"),
    SizeOption("Large", "240 cm", "large"),
    SizeOption("XL", "280 cm", "xl")
  ]

  /** Couch length (x extent, metres) per size word; a `Record<string, number>`
      in the source, so any other word reads as `undefined`. */
  const SizeToLength: map<string, real> := map[
    "small" := 2.4,
    "medium" := 3.0,
    "large" := 3.6,
    "xl" := 4.2
  ]

  /** The length stored for a size word, or None where the record has no entry. */
  function LengthOf(size: string): Option<real> {
    if size in SizeToLength then Some(SizeToLength[size]) else None
  }

  /** The sizes in the order the panel lists them. */
  function SizeValues(): (r: seq<string>)
    ensures |r| == |SizeOptions|
    ensures forall i :: 0 <= i < |r| ==> r[i] == SizeOptions[i].value
  {
    seq(|SizeOptions|, i requires 0 <= i < |SizeOptions| => SizeOptions[i].value)
  }

  predicate Distinct<T(==)>(s: seq<T>) {
    forall i, j :: 0 <= i < j < |s| ==> s[i] != s[j]
  }

  /** The length the table gives the `i`-th size the panel lists. */
  function LengthAt(i: nat): Option<real>
    requires i < |SizeOptions|
  {
    LengthOf(SizeOptions[i].value)
  }

  /** The length table grows strictly with the size, one 0.6 m step at a time. */
  lemma LengthsIncreaseByConstantStep()
    ensures LengthOf("small") == Some(2.4)
    ensures forall i: nat :: i < |SizeOptions| ==> LengthAt(i).Some?
    ensures forall i: nat :: i < |SizeOptions| - 1 ==> LengthAt(i + 1).GetOr(0.0) == LengthAt(i).GetOr(0.0) + 0.6
  {
  }

  /** Every size the panel offers has a length, and the length table knows no other size. */
  lemma SizeOptionsMatchLengthTable()
    ensures forall v :: v in SizeToLength <==> exists i :: 0 <= i < |SizeOptions| && SizeOptions[i].value == v
  {
    assert SizeOptions[0].value == "small";
    assert SizeOptions[1].value == "medium";
    assert SizeOptions[2].value == "large";
    assert SizeOptions[3].value == "xl";
  }

  /** No two swatches store the same colour and no two radio buttons the same size. */
  lemma OptionValuesDistinct()
    ensures Distinct(seq(|ColorOptions|, i requires 0 <= i < |ColorOptions| => ColorOptions[i].value))
    ensures Distinct(SizeValues())
  {
  }
}

=== FILE: inspire_wizard.dfy ===
/** The "Inspire" questionnaire (src/components/InspireDialog.tsx). Step 1
    is the intro animation; steps 2 to 7 show the six questions (colour
    palettes, materials, room type, style, recommended items, summary); from
    the summary the proposed furniture is handed to the page. */
module InspireWizard {
  import opened Types

  /** Keep the elements satisfying `keep`, in their original order. */
  function Filter(s: seq<string>, keep: string -> bool): (r: seq<string>)
    ensures |r| <= |s|
    ensures forall y :: y in r <==> y in s && keep(y)
    ensures forall y :: multiset(r)[y] == if keep(y) then multiset(s)[y] else 0
    ensures IsSubsequence(r, s)
  {
    if |s| == 0 then []
    else
      var rest := Filter(s[1..], keep);
      assert s == [s[0]] + s[1..];
      assert forall y :: y in s <==> y == s[0] || y in s[1..];
      SubsequenceOfTail(rest, s);
      if keep(s[0]) then
        assert multiset([s[0]] + rest) == multiset([s[0]]) + multiset(rest);
        [s[0]] + rest
      else rest
  }

  predicate NoDuplicates<T(==)>(s: seq<T>) {
    forall i, j :: 0 <= i < j < |s| ==> s[i] != s[j]
  }

  /** A checkbox list handler: drop `x` if it is listed, else append it. */
  function Toggle(list: seq<string>, x: string): (r: seq<string>)
    ensures x in r <==> x !in list
    ensures forall y :: y != x ==> (y in r <==> y in list)
    ensures x in list ==> IsSubsequence(r, list) && |r| < |list|
    ensures x !in list ==> |r| == |list| + 1 && r[..|list|] == list
    ensures NoDuplicates(list) ==> NoDuplicates(r)
  {
    if x in list then
      var r := Filter(list, y => y != x);
      assert |r| < |list| by { FilterDropsAbsent(list, y => y != x, x); }
      assert NoDuplicates(list) ==> NoDuplicates(r) by {
        if NoDuplicates(list) { FilterKeepsNoDuplicates(list, y => y != x); }
      }
      r
    else list + [x]
  }

  /** A filter that rejects an element of the list is strictly shorter. */
  lemma {:induction false} FilterDropsAbsent(s: seq<string>, keep: string -> bool, x: string)
    requires x in s && !keep(x)
    ensures |Filter(s, keep)| < |s|
  {
    if s[0] != x {
      FilterDropsAbsent(s[1..], keep, x);
    }
  }

  /** Filtering a list without duplicates leaves a list without duplicates. */
  lemma {:induction false} FilterKeepsNoDuplicates(s: seq<string>, keep: string -> bool)
    requires NoDuplicates(s)
    ensures NoDuplicates(Filter(s, keep))
  {
    if |s| > 0 {
      assert NoDuplicates(s[1..]);
      FilterKeepsNoDuplicates(s[1..], keep);
      assert s[0] !in s[1..];
    }
  }

  /** Toggling twice leaves the same members (the order may change). */
  lemma ToggleTwiceSameMembers(list: seq<string>, x: string)
    ensures forall y :: y in Toggle(Toggle(list, x), x) <==> y in list
  {
  }

  /** The recommendation lists shown for a room type. */
  datatype Recommendations = Recommendations(furniture: seq<string>, decorations: seq<string>)

  const RoomTypes: seq<string> := ["living-room", "bedroom", "dining-room", "home-office", "kitchen"]

  /** The fixed lists per room type, or two empty lists for any other word. */
  function GetRecommendedItems(roomType: string): (r: Recommendations)
    ensures roomType in RoomTypes <==> |r.furniture| >= 4
    ensures roomType in RoomTypes <==> |r.decorations| == 5
    ensures roomType !in RoomTypes ==> r == Recommendations([], [])
  {
    match roomType
    case "living-room" => Recommendations(
      ["Sofa", "Coffee Table", "TV Stand", "Armchair", "Bookshelf"],
      ["Area Rug", "Wall Art", "Table Lamp", "Throw Pillows", "Plants"])
    case "bedroom" => Recommendations(
      ["Bed", "Nightstand", "Dresser", "Wardrobe", "Desk"],
      ["Bedside Lamp", "Curtains", "Wall Mirror", "Throw Blanket", "Wall Clock"])
    case "dining-room" => Recommendations(
      ["Dining Table", "Dining Chairs", "Sideboard", "China Cabinet"],
      ["Chandelier", "Table Runner", "Wall Art", "Centerpiece", "Area Rug"])
    case "home-office" => Recommendations(
      ["Desk", "Office Chair", "Bookshelf", "Filing Cabinet"],
      ["Desk Lamp", "Wall Calendar", "Desk Organizer", "Plants", "Wall Art"])
    case "kitchen" => Recommendations(
      ["Kitchen Island", "Bar Stools", "Dining Table", "Chairs"],
      ["Pendant Lights", "Wall Clock", "Kitchen Rug", "Wall Art", "Plants"])
    case _ => Recommendations([], [])
  }

  /** A recommended item's checkbox is ticked unless the item is excluded. */
  predicate Checked(item: string, excluded: seq<string>) {
    item !in excluded
  }

  /** Clicking an item's checkbox flips its tick and no other. */
  lemma ExclusionToggleFlipsOneTick(excluded: seq<string>, item: string, other: string)
    ensures Checked(item, Toggle(excluded, item)) != Checked(item, excluded)
    ensures other != item ==> Checked(other, Toggle(excluded, item)) == Checked(other, excluded)
  {
  }

  /** What the summary step shows. */
  datatype Selections = Selections(
    colorPalettes: seq<string>,
    materials: seq<string>,
    roomType: string,
    style: string,
    includedItems: seq<string>)

  const QuestionCount: int := 6

  /** The dialog's state, with `isOpen` the prop the page passes in. */
  datatype Wizard = Wizard(
    step: int,
    isOpen: bool,
    colorPalettes: seq<string>,
    materials: seq<string>,
    roomType: string,
    style: string,
    recommended: Recommendations,
    excluded: seq<string>,
    selections: Selections)

  /** The state the dialog is mounted with. It starts at step 0, which shows
      nothing at all; the effect on `isOpen` also runs at mount and moves a
      dialog mounted open to the intro. */
  function Mounted(isOpen: bool): (w: Wizard)
    ensures w.isOpen == isOpen && w.step == (if isOpen then 1 else 0)
    ensures w.selections.includedItems == [] && w.excluded == []
  {
    Wizard(if isOpen then 1 else 0, isOpen, [], [], "", "", Recommendations([], []), [],
           Selections([], [], "", "", []))
  }

  /** The recommended items that are still ticked, furniture first. */
  function IncludedItems(rec: Recommendations, excluded: seq<string>): (r: seq<string>)
    ensures forall y :: y in r <==> (y in rec.furniture || y in rec.decorations) && Checked(y, excluded)
    ensures forall y :: multiset(r)[y] ==
                          (if Checked(y, excluded) then multiset(rec.furniture + rec.decorations)[y] else 0)
    ensures IsSubsequence(r, rec.furniture + rec.decorations)
  {
    Filter(rec.furniture + rec.decorations, y => Checked(y, excluded))
  }

  /** Result of "Next": the new state, and whether the dialog asked to be closed. */
  datatype Advance = Advance(wizard: Wizard, closeRequested: bool)

  /** "Next". Up to the last question the step advances. Leaving step 3
      (the materials question) reloads the recommendations from the room
      type held at that moment: the room-type question only comes at step 4,
      and its select loads them itself. Leaving step 6 records the summary,
      with the still-ticked recommendations as the included items. Past the
      last question the dialog asks to close. */
  function HandleNext(w: Wizard): (r: Advance)
    ensures w.step <= QuestionCount ==> !r.closeRequested && r.wizard.step == w.step + 1
    ensures w.step > QuestionCount ==> r == Advance(w, true)
    ensures w.step == 3 ==> r.wizard.recommended == GetRecommendedItems(w.roomType)
    ensures w.step != 3 ==> r.wizard.recommended == w.recommended
    ensures w.step == QuestionCount ==>
      r.wizard.selections == Selections(w.colorPalettes, w.materials, w.roomType, w.style,
                                        IncludedItems(w.recommended, w.excluded))
    ensures w.step != QuestionCount ==> r.wizard.selections == w.selections
    ensures r.wizard.(step := w.step, recommended := w.recommended, selections := w.selections) == w
  {
    if w.step <= QuestionCount then
      var w1 := if w.step == 3 then w.(recommended := GetRecommendedItems(w.roomType)) else w;
      var w2 := if w.step == QuestionCount
        then w1.(selections := Selections(w.colorPalettes, w.materials, w.roomType, w.style,
                                          IncludedItems(w.recommended, w.excluded)))
        else w1;
      Advance(w2.(step := w.step + 1), false)
    else
      Advance(w, true)
  }

  /** "Previous": back one step, but never from step 1 or below. */
  function HandlePrevious(w: Wizard): (r: Wizard)
    ensures w.step > 1 ==> r.step == w.step - 1
    ensures w.step <= 1 ==> r == w
    ensures r.(step := w.step) == w
  {
    if w.step > 1 then w.(step := w.step - 1) else w
  }

  /** The page passes `isOpen`. The effect on that prop runs only when its
      value changes, and restarts at step 1 when it turns true; passing the
      value the dialog already has changes nothing. */
  function OnOpenChanged(w: Wizard, isOpen: bool): (r: Wizard)
    ensures r.isOpen == isOpen
    ensures isOpen && !w.isOpen ==> r.step == 1
    ensures isOpen == w.isOpen ==> r == w
    ensures !isOpen ==> r.step == w.step
    ensures r.(step := w.step, isOpen := w.isOpen) == w
  {
    if isOpen == w.isOpen then w
    else if isOpen then w.(isOpen := true, step := 1)
    else w.(isOpen := false)
  }

  /** The intro animation's start button moves on to the first question. */
  function StartFromIntro(w: Wizard): (r: Wizard)
    ensures r.step == 2 && r.(step := w.step) == w
  {
    w.(step := 2)
  }

  /** Every way of dismissing the dialog (the intro's close button, or the
      dialog's own close) resets the step to 1 and asks the page to close. */
  function Dismiss(w: Wizard): (r: Advance)
    ensures r.closeRequested && r.wizard.step == 1 && r.wizard.(step := w.step) == w
  {
    Advance(w.(step := 1), true)
  }

  /** "Add to room": the included items that are recommended furniture, in
      summary order, handed to the page; then the dialog asks to close. */
  function ProposedFurniture(w: Wizard): (r: seq<string>)
    ensures forall y :: y in r <==> y in w.selections.includedItems && y in w.recommended.furniture
    ensures forall y :: multiset(r)[y] ==
                          (if y in w.recommended.furniture then multiset(w.selections.includedItems)[y] else 0)
    ensures IsSubsequence(r, w.selections.includedItems)
  {
    Filter(w.selections.includedItems, y => y in w.recommended.furniture)
  }

  /** "Add to room": the proposed furniture goes to the page and the dialog
      asks to close, but unlike `Dismiss` the step is not reset. The page's
      close only clears `isOpen`, and the effect on that prop resets the step
      on opening alone, so the summary step stays until the next opening. */
  function HandleAddToRoom(w: Wizard): (r: Advance)
    ensures r.closeRequested && r.wizard == w
  {
    Advance(w, true)
  }

  /** The step always stays within 0..7, whatever sequence of events. */
  predicate StepInRange(w: Wizard) {
    0 <= w.step <= QuestionCount + 1
  }

  /** The room-type select: it records the value and loads that room's
      recommendations at once. */
  function SelectRoomType(w: Wizard, value: string): (r: Wizard)
    ensures r.roomType == value && r.recommended == GetRecommendedItems(value)
    ensures r.(roomType := w.roomType, recommended := w.recommended) == w
  {
    w.(roomType := value, recommended := GetRecommendedItems(value))
  }

  /** What the user can do: the buttons, the two checkbox lists, the two
      selects, the ticks of the recommended items, and the `isOpen` prop. */
  datatype Event =
    | Next | Previous | Start | Close | OpenChanged(isOpen: bool)
    | TogglePalette(palette: string) | ToggleMaterial(material: string)
    | SelectRoom(roomType: string) | SelectStyle(style: string)
    | ToggleExclusion(item: string) | AddToRoom

  /** The intro overlay as written: it is rendered whenever the step is 1,
      whatever `isOpen` says. */
  predicate IntroShown(w: Wizard) {
    w.step == 1
  }

  /** The intro overlay as evidently intended: only while the dialog is open. */
  predicate IntendedIntroShown(w: Wizard) {
    w.step == 1 && w.isOpen
  }

  /** The question dialog is rendered from step 2 on, and shown only while
      its `open` prop, the page's `isOpen`, is true. */
  predicate DialogShown(w: Wizard) {
    w.isOpen && w.step > 1
  }

  /** Whether the control behind `e` is on screen and enabled, given whether
      the intro (start and close) is. The dialog shows question `step - 1`,
      whose Previous button is disabled on the first question and whose Next
      button gives way to "Add to room" on the summary; its close is the
      dialog's own. */
  predicate OnScreen(w: Wizard, e: Event, intro: bool) {
    match e
    case Next => DialogShown(w) && w.step <= QuestionCount
    case Previous => DialogShown(w) && w.step > 2
    case Start => intro
    case Close => intro || DialogShown(w)
    case OpenChanged(_) => true
    case TogglePalette(_) => DialogShown(w) && w.step == 2
    case ToggleMaterial(_) => DialogShown(w) && w.step == 3
    case SelectRoom(_) => DialogShown(w) && w.step == 4
    case SelectStyle(_) => DialogShown(w) && w.step == 5
    case ToggleExclusion(_) => DialogShown(w) && w.step == 6
    case AddToRoom => DialogShown(w) && w.step == QuestionCount + 1
  }

  /** The controls on screen as written. */
  predicate Shown(w: Wizard, e: Event) {
    OnScreen(w, e, IntroShown(w))
  }

  /** The controls on screen with the intended intro overlay. */
  predicate IntendedShown(w: Wizard, e: Event) {
    OnScreen(w, e, IntendedIntroShown(w))
  }

  /** One user event; a control that is not on screen does nothing. */
  function Apply(w: Wizard, e: Event): (r: Wizard)
    ensures !Shown(w, e) ==> r == w
    ensures e.Next? && Shown(w, e) ==> r.step == w.step + 1
    ensures e.Previous? && Shown(w, e) ==> r.step == w.step - 1
    ensures e.AddToRoom? ==> r == w
    ensures e.Close? && Shown(w, e) ==> r.step == 1
    ensures e.ToggleExclusion? && Shown(w, e) ==>
      r == w.(excluded := Toggle(w.excluded, e.item))
  {
    if !Shown(w, e) then w
    else match e
      case Next => HandleNext(w).wizard
      case Previous => HandlePrevious(w)
      case Start => StartFromIntro(w)
      case Close => Dismiss(w).wizard
      case OpenChanged(o) => OnOpenChanged(w, o)
      case TogglePalette(x) => w.(colorPalettes := Toggle(w.colorPalettes, x))
      case ToggleMaterial(x) => w.(materials := Toggle(w.materials, x))
      case SelectRoom(v) => SelectRoomType(w, v)
      case SelectStyle(v) => w.(style := v)
      case ToggleExclusion(x) => w.(excluded := Toggle(w.excluded, x))
      case AddToRoom => HandleAddToRoom(w).wizard
  }

  function Run(w: Wizard, events: seq<Event>): Wizard
    decreases |events|
  {
    if |events| == 0 then w else Run(Apply(w, events[0]), events[1..])
  }

  lemma {:induction false} StepStaysInRange(w: Wizard, events: seq<Event>)
    requires StepInRange(w)
    ensures StepInRange(Run(w, events))
    decreases |events|
  {
    if |events| > 0 {
      StepStaysInRange(Apply(w, events[0]), events[1..]);
    }
  }

  /** Once opened, Previous never takes the dialog below step 1. */
  lemma {:induction false} OpenedStepNeverBelowOne(w: Wizard, events: seq<Event>)
    requires w.step >= 1
    ensures Run(w, events).step >= 1
    decreases |events|
  {
    if |events| > 0 {
      OpenedStepNeverBelowOne(Apply(w, events[0]), events[1..]);
    }
  }

  /** From the intro, the walk start, Next, Next, pick room type `v`, Next,
      Next, Next reaches the summary, whose included items are `v`'s
      recommendations still ticked, and whose proposed furniture is exactly
      `v`'s recommended furniture still ticked. */
  lemma WalkReachesSummary(w: Wizard, v: string)
    requires w.step == 1 && w.isOpen
    ensures var s := Run(w, [Start, Next, Next, SelectRoom(v), Next, Next, Next]);
      s.step == 7
      && s.selections.roomType == v
      && s.selections.includedItems == IncludedItems(GetRecommendedItems(v), w.excluded)
      && forall y :: y in ProposedFurniture(s) <==>
           y in GetRecommendedItems(v).furniture && Checked(y, w.excluded)
  {
    var s := WalkSteps(w, v);
    var rec := GetRecommendedItems(v);
    forall y ensures y in ProposedFurniture(s) <==> y in rec.furniture && Checked(y, w.excluded) {
      assert y in rec.furniture ==> y in rec.furniture + rec.decorations;
    }
  }

  /** The states along the walk, one event at a time. */
  lemma WalkSteps(w: Wizard, v: string) returns (s: Wizard)
    requires w.step == 1 && w.isOpen
    ensures s == Run(w, [Start, Next, Next, SelectRoom(v), Next, Next, Next])
    ensures s.step == 7 && s.recommended == GetRecommendedItems(v)
    ensures s.selections.roomType == v
    ensures s.selections.includedItems == IncludedItems(GetRecommendedItems(v), w.excluded)
  {
    var es := [Start, Next, Next, SelectRoom(v), Next, Next, Next];
    var w1 := Apply(w, Start);
    assert w1 == w.(step := 2);
    var w2 := Apply(w1, Next);
    assert w2.step == 3 && w2.excluded == w.excluded;
    var w3 := Apply(w2, Next);
    assert w3.step == 4 && w3.excluded == w.excluded;
    var w4 := Apply(w3, SelectRoom(v));
    assert w4 == w3.(roomType := v, recommended := GetRecommendedItems(v));
    var w5 := Apply(w4, Next);
    assert w5 == w4.(step := 5);
    var w6 := Apply(w5, Next);
    assert w6 == w4.(step := 6);
    s := Apply(w6, Next);
    assert s.step == 7 && s.recommended == GetRecommendedItems(v);
    assert s.selections == Selections(w4.colorPalettes, w4.materials, v, w4.style,
                                      IncludedItems(GetRecommendedItems(v), w.excluded));
    assert es[1..] == [Next, Next, SelectRoom(v), Next, Next, Next];
    assert es[1..][1..] == [Next, SelectRoom(v), Next, Next, Next];
    assert es[1..][1..][1..] == [SelectRoom(v), Next, Next, Next];
    assert es[1..][1..][1..][1..] == [Next, Next, Next];
    assert es[1..][1..][1..][1..][1..] == [Next, Next];
    assert es[1..][1..][1..][1..][1..][1..] == [Next];
    assert Run(w6, [Next]) == s;
    assert Run(w5, [Next, Next]) == s;
    assert Run(w4, [Next, Next, Next]) == s;
    assert Run(w3, [SelectRoom(v), Next, Next, Next]) == s;
    assert Run(w2, es[1..][1..]) == s;
    assert Run(w1, es[1..]) == s;
  }

  /** Next does nothing on the intro: only the start button leaves it. */
  lemma NextIgnoredOnIntro(w: Wizard)
    requires w.step == 1
    ensures Run(w, [Next, Next, Next, Next, Next, Next]) == w
  {
  }

  /** After "Add to room" the dialog is closed on the summary step: the
      page's close (the prop turning false) keeps it, so the state is the
      one the summary showed, and only the next opening goes back to the
      intro. A dismissal, by contrast, resets the step at once. */
  lemma AddToRoomKeepsSummaryStep(w: Wizard)
    requires w.step == QuestionCount + 1 && w.isOpen
    ensures Run(w, [AddToRoom, OpenChanged(false)]) == w.(isOpen := false)
    ensures Run(w, [AddToRoom, OpenChanged(false), OpenChanged(true)]) == w.(step := 1)
    ensures Run(w, [Close, OpenChanged(false)]).step == 1
  {
    assert [AddToRoom, OpenChanged(false)][1..] == [OpenChanged(false)];
    assert [AddToRoom, OpenChanged(false), OpenChanged(true)][1..] == [OpenChanged(false), OpenChanged(true)];
    assert [Close, OpenChanged(false)][1..] == [OpenChanged(false)];
  }

  /** Once the page has closed the dialog, none of the dialog's controls is
      on screen: each does nothing, the summary's included. */
  lemma ClosedDialogIgnoresItsControls(w: Wizard, e: Event)
    requires !w.isOpen && w.step > 1 && !e.OpenChanged? && !e.Close? && !e.Start?
    ensures Apply(w, e) == w
  {
  }

  /** Passing `isOpen` again without a change does not restart the wizard:
      the effect only runs when the prop changes. */
  lemma ReopenWhileOpenKeepsStep(w: Wizard)
    requires w.isOpen
    ensures Apply(w, OpenChanged(true)) == w
    ensures Apply(Apply(w, OpenChanged(false)), OpenChanged(true)) == w.(step := 1)
  {
  }

  /** As written, a dismissal leaves the intro overlay up. Closing the
      question dialog (or the intro) sets step 1 and the page then clears
      `isOpen`; the intro ignores that prop, so it is shown over the page,
      with its start and close live, and its close, which repeats the
      dismissal, leaves everything as it is. */
  lemma IntroOutlivesDismissal(w: Wizard)
    requires w.isOpen && w.step >= 1
    ensures var c := Run(w, [Close, OpenChanged(false)]);
      && !c.isOpen && IntroShown(c)
      && Shown(c, Start) && Shown(c, Close)
      && Run(c, [Close, OpenChanged(false)]) == c
  {
    assert [Close, OpenChanged(false)][1..] == [OpenChanged(false)];
  }

  /** With the intended intro, a dismissal clears the screen: once the page
      has closed the dialog no control but the prop itself does anything,
      and the next opening shows the intro again. */
  lemma IntendedDismissalClearsScreen(w: Wizard, e: Event)
    requires w.isOpen && w.step >= 1
    ensures var c := Run(w, [Close, OpenChanged(false)]);
      && !IntendedIntroShown(c)
      && (e.OpenChanged? || !IntendedShown(c, e))
      && IntendedIntroShown(OnOpenChanged(c, true))
  {
    assert [Close, OpenChanged(false)][1..] == [OpenChanged(false)];
  }

  /** The dialog mounted closed waits for the `isOpen` prop: nothing else
      changes it, and opening starts the intro. */
  lemma MountedWaitsForOpen(e: Event)
    ensures e != OpenChanged(true) ==> Apply(Mounted(false), e) == Mounted(false)
    ensures Apply(Mounted(false), OpenChanged(true)) == Mounted(true)
  {
  }
}

=== FILE: model_loader.dfy ===
/** The loader of one furniture model (src/models/ModelLoader.tsx): it finds
    its item by id, scales the shared mesh geometry to the item's size, lets
    a quick click toggle the edit badge and lets the badge open or close the
    side panel. A geometry is represented by its bounding-sphere radius. */
module ModelLoader {
  import opened Wrappers
  import opened Types
  import AppContext

  /** The item with the given id, the first one when several share it; None
      when the list has no such item, in which case nothing is rendered. */
  function FindItem(items: seq<FurnitureItem>, id: string): (r: Option<FurnitureItem>)
    ensures r.None? <==> forall i :: 0 <= i < |items| ==> items[i].id != id
    ensures r.Some? ==> r.value.id == id && r.value in items
    ensures r.Some? && UniqueIds(items) ==> forall i :: 0 <= i < |items| && items[i].id == id ==> items[i] == r.value
  {
    var k := FindIndex(items, id);
    if k == -1 then None else Some(items[k])
  }

  /** The relative scale for a size word. "xl" has no case of its own and
      falls to the default, like any unknown word. */
  function GetSizeScale(size: string): (r: real)
    ensures r > 0.0
    ensures size == "small" ==> r == 0.8 < 1.0
    ensures size == "large" ==> r == 1.2 > 1.0
    ensures size != "small" && size != "large" ==> r == 1.0
  {
    match size
    case "small" => 0.8
    case "medium" => 1.0
    case "large" => 1.2
    case _ => 1.0
  }

  /** "xl" scales exactly like "medium", so it renders smaller than "large". */
  lemma XlScalesLikeMedium()
    ensures GetSizeScale("xl") == GetSizeScale("medium") < GetSizeScale("large")
  {
  }

  /** A mesh geometry, known here only by its bounding-sphere radius. */
  datatype Geometry = Geometry(radius: real)

  /** The factor that brings a geometry of bounding radius `radius` to the
      size's scale. The source does not guard against a zero radius. */
  function NormalisationScale(size: string, radius: real): (f: real)
    requires radius > 0.0
    ensures f > 0.0
    ensures f * radius == GetSizeScale(size)
  {
    GetSizeScale(size) / radius
  }

  /** Scale the geometry itself (not a copy) by the normalisation factor.
      Uniform scaling by `f` multiplies the bounding radius by `f`. */
  function Normalise(g: Geometry, size: string): (r: Geometry)
    requires g.radius > 0.0
    ensures r.radius == GetSizeScale(size)
  {
    Geometry(g.radius * NormalisationScale(size, g.radius))
  }

  /** The effect reruns whenever the item changes; on an unchanged size the
      rerun leaves the already normalised geometry as it is. */
  lemma NormaliseIdempotent(g: Geometry, size: string)
    requires g.radius > 0.0
    ensures Normalise(Normalise(g, size), size) == Normalise(g, size)
  {
  }

  /** Because the geometry is scaled in place, two items showing the same
      cached mesh end up with the scale of whichever normalised it last. */
  lemma SharedGeometryTakesLastSize(g: Geometry, firstSize: string, secondSize: string)
    requires g.radius > 0.0
    ensures Normalise(Normalise(g, firstSize), secondSize).radius == GetSizeScale(secondSize)
  {
  }

  /** Loader-local click bookkeeping plus the shared drag flag. */
  datatype Clicker = Clicker(clickTime: Option<int>, editVisible: bool, isDragging: bool)

  const ClickWindowMs: int := 200

  /** Pointer-down at time `now` (ms): dragging starts and the time is kept. */
  function PointerDown(c: Clicker, now: int): (r: Clicker)
    ensures r.isDragging && r.clickTime == Some(now) && r.editVisible == c.editVisible
  {
    Clicker(Some(now), c.editVisible, true)
  }

  /** A press counts as a click when a press time is recorded, is not the
      falsy value 0, and lies at most 200 ms back. */
  predicate QuickClick(c: Clicker, now: int) {
    c.clickTime.Some? && c.clickTime.value != 0 && now - c.clickTime.value <= ClickWindowMs
  }

  /** Pointer-up at time `now`: dragging stops, the press time is cleared,
      and the badge flips exactly when the press was a quick click. */
  function PointerUp(c: Clicker, now: int): (r: Clicker)
    ensures !r.isDragging && r.clickTime.None?
    ensures r.editVisible != c.editVisible <==> QuickClick(c, now)
  {
    Clicker(None, if QuickClick(c, now) then !c.editVisible else c.editVisible, false)
  }

  /** Two quick clicks in a row leave the badge as it was. */
  lemma TwoQuickClicksRestoreBadge(c: Clicker, t1: int, t2: int, t3: int, t4: int)
    requires t1 != 0 && t2 - t1 <= ClickWindowMs && t3 != 0 && t4 - t3 <= ClickWindowMs
    ensures PointerUp(PointerDown(PointerUp(PointerDown(c, t1), t2), t3), t4).editVisible == c.editVisible
  {
  }

  /** A pointer-up without a recorded press never shows or hides the badge. */
  lemma UpWithoutPressKeepsBadge(c: Clicker, t1: int, t2: int)
    ensures PointerUp(PointerUp(c, t1), t2).editVisible == PointerUp(c, t1).editVisible
  {
  }

  /** The badge's edit click. From a closed panel it opens the panel on this
      item; from any other state it closes the panel and collapses the
      accordion, leaving the selection alone. */
  function OnEditClick(u: AppContext.UiState, id: string): (r: AppContext.UiState)
    ensures u.menu == Closed ==> r.menu == Open && r.selected == id && r.activeAccordion == id
    ensures u.menu != Closed ==> r.menu == Closed && r.selected == u.selected && r.activeAccordion == ""
    ensures r.(menu := u.menu, selected := u.selected, activeAccordion := u.activeAccordion) == u
  {
    if u.menu == Closed then u.(menu := Open, selected := id, activeAccordion := id)
    else u.(menu := Closed, activeAccordion := "")
  }

  /** Two edit clicks from a closed panel close it again with nothing expanded. */
  lemma EditClickTwiceCloses(u: AppContext.UiState, id: string)
    requires u.menu == Closed
    ensures var r := OnEditClick(OnEditClick(u, id), id);
      r.menu == Closed && r.activeAccordion == "" && r.selected == id
  {
  }

  /** From the provider's start state the first edit click opens the panel
      on that item, and a second one closes it again. */
  lemma FirstEditClickOpens(id: string)
    ensures var u := OnEditClick(AppContext.InitialUi(), id);
      u.menu == Open && u.selected == id && u.activeAccordion == id
    ensures OnEditClick(OnEditClick(AppContext.InitialUi(), id), id).menu == Closed
  {
  }
}

=== FILE: navbar.dfy ===
/** The mobile-style toolbar's shared-state updates, identical in
    src/components/Navbar.tsx and src/components/mobile/Navbar.tsx. Both
    updates write into the selected entry in place; the colour update then
    replaces the entry with a new object holding the colour only. */
module Navbar {
  import opened Wrappers
  import opened SharedState

  /** The colour number for a menu label: "Red" is 1, anything else 2. */
  function ColorForLabel(caption: string): (c: int)
    ensures c == 1 <==> caption == "Red"
    ensures c == 1 || c == 2
  {
    if caption == "Red" then 1 else 2
  }

  /** The colour menu's labels, in menu order. */
  const MenuLabels: seq<string> := ["Red", "Green"]

  /** The two menu entries pick the two colour numbers, one each. */
  lemma MenuLabelsPickEachColor()
    ensures ColorForLabel(MenuLabels[0]) == 1 && ColorForLabel(MenuLabels[1]) == 2
  {
  }

  /** The toolbar is rendered only while something is selected. */
  predicate Rendered(selected: string) {
    selected != ""
  }

  /** Set the colour of the selected entry. None is the TypeError of writing
      into an absent entry. Otherwise the selected key maps to an object with
      the colour only (its rotation and every other property are dropped),
      the other keys are kept, and the previous state's entry has been given
      the colour in place. */
  function ColorClick(s: State, selected: string, color: int): (r: Option<Update>)
    ensures r.None? <==> selected !in s
    ensures r.Some? ==> r.value.next.Keys == s.Keys
    ensures r.Some? ==> r.value.next[selected] == map["color" := Num(color)]
    ensures r.Some? ==> forall k :: k in s && k != selected ==> r.value.next[k] == s[k]
    ensures r.Some? ==> r.value.previousAfter.Keys == s.Keys
    ensures r.Some? ==> forall k :: k in s && k != selected ==> r.value.previousAfter[k] == s[k]
    ensures r.Some? ==>
      && r.value.previousAfter[selected].Keys == s[selected].Keys + {"color"}
      && r.value.previousAfter[selected]["color"] == Num(color)
      && forall p :: p in s[selected] && p != "color" ==> r.value.previousAfter[selected][p] == s[selected][p]
  {
    if selected !in s then None
    else
      var mutated := s[selected]["color" := Num(color)];
      Some(Update(s[selected := map["color" := Num(color)]], s[selected := mutated]))
  }

  /** Rotate the selected entry's z angle (`rotation[2]`) one wrap step, in
      place. None is the TypeError of reading an absent entry or an absent
      rotation array. The returned state and the previous one share the
      mutated entry, so both read the same afterwards. */
  function Rotate(s: State, selected: string): (r: Option<Update>)
    ensures r.None? <==> selected !in s || !HasRotation(s[selected])
    ensures r.Some? ==> r.value.next == r.value.previousAfter
    ensures r.Some? ==> r.value.next.Keys == s.Keys
    ensures r.Some? ==> forall k :: k in s && k != selected ==> r.value.next[k] == s[k]
    ensures r.Some? ==>
      var was := s[selected]["rotation"];
      r.value.next[selected] == s[selected]["rotation" := Euler(was.x, was.y, WrapQuarterTurn(was.z))]
  {
    if selected !in s || !HasRotation(s[selected]) then None
    else
      var e := s[selected];
      var rot := e["rotation"];
      var mutated := e["rotation" := Euler(rot.x, rot.y, WrapQuarterTurn(rot.z))];
      Some(Update(s[selected := mutated], s[selected := mutated]))
  }

  /** Four rotates bring an angle of [-pi, pi) back: the state is as before. */
  lemma FourRotatesRestore(s: State, selected: string)
    requires selected in s && HasRotation(s[selected])
    requires -2 <= s[selected]["rotation"].z <= 1
    ensures var r1 := Rotate(s, selected).value.next;
      var r2 := Rotate(r1, selected).value.next;
      var r3 := Rotate(r2, selected).value.next;
      Rotate(r3, selected).value.next == s
  {
    var rot := s[selected]["rotation"];
    WrapHasPeriodFour(rot.z);
    var r1 := Rotate(s, selected).value.next;
    var r2 := Rotate(r1, selected).value.next;
    var r3 := Rotate(r2, selected).value.next;
    var r4 := Rotate(r3, selected).value.next;
    assert r4[selected] == s[selected];
  }

  /** The colour update as evidently intended: the selected entry keeps its
      other properties (the rotation among them) and gains the colour, as
      the desktop toolbar writes it. */
  function CorrectedColorClick(s: State, selected: string, color: int): (r: Option<Update>)
    ensures r.None? <==> selected !in s
    ensures r.Some? ==> r.value.next.Keys == s.Keys
    ensures r.Some? ==> forall k :: k in s && k != selected ==> r.value.next[k] == s[k]
    ensures r.Some? ==>
      && r.value.next[selected].Keys == s[selected].Keys + {"color"}
      && r.value.next[selected]["color"] == Num(color)
      && forall p :: p in s[selected] && p != "color" ==> r.value.next[selected][p] == s[selected][p]
  {
    if selected !in s then None
    else
      var e := s[selected]["color" := Num(color)];
      Some(Update(s[selected := e], s[selected := e]))
  }

  /** With the corrected colour update a rotate still succeeds afterwards and
      keeps the new colour. */
  lemma RotateSucceedsAfterCorrectedColorClick(s: State, selected: string, color: int)
    requires selected in s && HasRotation(s[selected])
    ensures var colored := CorrectedColorClick(s, selected, color).value.next;
      var rotated := Rotate(colored, selected);
      rotated.Some? && rotated.value.next[selected]["color"] == Num(color)
  {
  }

  /** A colour change followed by a rotate always fails: the colour update
      threw the rotation away, so the rotate reads a property of `undefined`. */
  lemma RotateFailsAfterColorClick(s: State, selected: string, color: int)
    requires selected in s
    ensures Rotate(ColorClick(s, selected, color).value.next, selected).None?
  {
  }

  /** React's development double call: the updater runs twice on the same
      previous state. The colour update then yields the same result both
      times, since its new entry does not depend on what the first call
      wrote into the previous one. */
  lemma StrictModeColorClickSameResult(s: State, selected: string, color: int)
    requires selected in s
    ensures var first := ColorClick(s, selected, color).value;
      ColorClick(first.previousAfter, selected, color).value.next == first.next
  {
  }

  /** The rotate update's double call steps the angle twice: the first call
      already rotated the previous state's entry in place, and the second
      call rotates that entry again. */
  lemma StrictModeRotatesTwice(s: State, selected: string)
    requires selected in s && HasRotation(s[selected])
    ensures var first := Rotate(s, selected).value;
      var second := Rotate(first.previousAfter, selected);
      && second.Some?
      && second.value.next[selected]["rotation"].z
         == WrapQuarterTurn(WrapQuarterTurn(s[selected]["rotation"].z))
  {
    var first := Rotate(s, selected).value;
    assert HasRotation(first.previousAfter[selected]);
  }
}

=== FILE: outline_page.dfy ===
/** The outline demo page (src/components/outline/3d-scene-with-nav.tsx): a
    couch scaled by size, highlighted while hovered, with rotate, colour,
    size and remove commands from its toolbar. */
module OutlinePage {
  import opened Wrappers
  import ModelLoader

  /** The couch's scale per size word; any other word reads as `undefined`. */
  const SizeScale: map<string, real> := map["small" := 0.8, "medium" := 1.0, "large" := 1.2, "xl" := 1.4]

  function ScaleOf(size: string): Option<real> {
    if size in SizeScale then Some(SizeScale[size]) else None
  }

  /** The values of the size menu items and of the colour swatches. */
  const SizeMenuValues: seq<string> := ["small", "medium", "large", "xl"]
  const ColorOptionValues: seq<string> := ["#FF0000", "#00FF00", "#0000FF"]

  /** The scale runs 0.8, 1.0, 1.2, 1.4, in steps of 0.2, and agrees with
      the model loader's scale except for "xl", where the loader falls back
      to 1. */
  lemma ScaleTableAgainstLoader()
    ensures ScaleOf("small") == Some(0.8) && ScaleOf("xl") == Some(1.4)
    ensures ScaleOf("medium").GetOr(0.0) - ScaleOf("small").GetOr(0.0) == 0.2
    ensures ScaleOf("large").GetOr(0.0) - ScaleOf("medium").GetOr(0.0) == 0.2
    ensures ScaleOf("xl").GetOr(0.0) - ScaleOf("large").GetOr(0.0) == 0.2
    ensures forall s :: s in SizeScale && s != "xl" ==> SizeScale[s] == ModelLoader.GetSizeScale(s)
    ensures SizeScale["xl"] != ModelLoader.GetSizeScale("xl")
  {
  }

  /** Every size menu item has a scale, and the scale table knows no other word. */
  lemma SizeMenuItemsAreTheScaledSizes(s: string)
    ensures s in SizeMenuValues <==> ScaleOf(s).Some?
  {
  }

  /** The page's state; `rotation` counts quarter turns. */
  datatype Outline = Outline(rotation: int, color: string, isCouchVisible: bool, size: string, isHovered: bool)

  /** The start state. The colour and the size are written with the quotes
      inside the string, so they are the nine- and eight-character words
      `'#8B4513'` and `'medium'`: the size has no scale, so the couch starts
      with an undefined scale, no size menu item matches and no swatch
      matches the colour. */
  function Initial(): (o: Outline)
    ensures o.rotation == 0 && o.isCouchVisible && !o.isHovered
    ensures ScaleOf(o.size) == None && o.size !in SizeMenuValues
    ensures o.color !in ColorOptionValues
  {
    Outline(0, "'#8B4513'", true, "'medium'", false)
  }

  /** Picking any size menu item gives the couch a scale: the start state's
      missing scale lasts only until the first size change. */
  lemma PickedSizeHasScale(i: int)
    requires 0 <= i < |SizeMenuValues|
    ensures ScaleOf(Initial().size).None?
    ensures ScaleOf(SizeChange(Initial(), SizeMenuValues[i]).size).Some?
  {
  }

  /** Rotate adds a quarter turn and never wraps. */
  function Rotate(o: Outline): (r: Outline)
    ensures r.rotation > o.rotation && r.(rotation := o.rotation) == o
  {
    o.(rotation := o.rotation + 1)
  }

  lemma FourRotatesAddFullTurn(o: Outline)
    ensures Rotate(Rotate(Rotate(Rotate(o)))).rotation == o.rotation + 4
    ensures Rotate(Rotate(Rotate(Rotate(o)))).(rotation := o.rotation) == o
  {
  }

  function ColorChange(o: Outline, color: string): (r: Outline)
    ensures r.color == color && r.(color := o.color) == o
  {
    o.(color := color)
  }

  function SizeChange(o: Outline, size: string): (r: Outline)
    ensures r.size == size && r.(size := o.size) == o
  {
    o.(size := size)
  }

  function Remove(o: Outline): (r: Outline)
    ensures !r.isCouchVisible && r.(isCouchVisible := o.isCouchVisible) == o
  {
    o.(isCouchVisible := false)
  }

  /** Pointer-over (`entering`) or pointer-out on the couch: the couch's own
      hover flag and the page's flag get the same value. Returns the couch's
      new flag and the page. */
  function Hover(couchHovered: bool, o: Outline, entering: bool): (r: (bool, Outline))
    ensures r.0 == entering && r.1.isHovered == entering
    ensures r.1.(isHovered := o.isHovered) == o
  {
    (entering, o.(isHovered := entering))
  }

  /** Each setter's last write wins, the setters for different fields
      commute, and removing twice is removing once. */
  lemma SettersLastWriteWins(o: Outline, c1: string, c2: string, s1: string, s2: string)
    ensures ColorChange(ColorChange(o, c1), c2) == ColorChange(o, c2)
    ensures SizeChange(SizeChange(o, s1), s2) == SizeChange(o, s2)
    ensures ColorChange(SizeChange(o, s1), c1) == SizeChange(ColorChange(o, c1), s1)
    ensures Remove(Remove(o)) == Remove(o)
    ensures Remove(ColorChange(o, c1)) == ColorChange(Remove(o), c1)
  {
  }
}

=== FILE: shared_state.dfy ===
/** The keyed shared state that the toolbars edit: one JavaScript object per
    scene object name, holding at least a colour number and an Euler
    rotation `[x, y, z]`. Angles are whole quarter turns, and the toolbars'
    wrap `(r + pi + pi/2) % (2 pi) - pi` is computed on quarter-turn counts
    with JavaScript's truncating remainder. */
module SharedState {

  /** A property value: a number, a string or a three-angle rotation array. */
  datatype Value = Num(n: int) | Text(s: string) | Euler(x: int, y: int, z: int)

  /** One scene object's properties. */
  type Entry = map<string, Value>

  /** The whole shared state, keyed by scene object name. */
  type State = map<string, Entry>

  /** A state update. `next` is the state the setter returns; `previousAfter`
      is how the previous state object reads afterwards, which differs from
      the previous state when the update mutated one of its entries in place. */
  datatype Update = Update(next: State, previousAfter: State)

  /** JavaScript's `a % 4`, the remainder by one full turn: it takes the
      sign of `a`, unlike Dafny's Euclidean `%`. */
  function JsRemFullTurn(a: int): (r: int)
    ensures a >= 0 ==> 0 <= r < 4
    ensures a < 0 ==> -4 < r <= 0
    ensures (a - r) % 4 == 0
  {
    if a >= 0 then a % 4 else -((-a) % 4)
  }

  /** The toolbars' rotate step on an angle of `q` quarter turns:
      `(q + 3) % 4 - 2`. It is always a quarter turn forward up to whole
      turns, and it lands in [-pi, pi) from any start at or above -3 pi / 2. */
  function WrapQuarterTurn(q: int): (r: int)
    ensures (r - (q + 1)) % 4 == 0
    ensures q >= -3 ==> -2 <= r <= 1
    ensures q < -3 ==> -5 <= r <= -2
  {
    JsRemFullTurn(q + 3) - 2
  }

  /** Within [-pi, pi) the step adds pi/2, except at pi/2 where it wraps to -pi. */
  lemma WrapStepsInsideHalfOpenRange(q: int)
    requires -2 <= q <= 1
    ensures WrapQuarterTurn(q) == if q == 1 then -2 else q + 1
  {
  }

  /** Four steps return every angle of [-pi, pi) to itself. */
  lemma WrapHasPeriodFour(q: int)
    requires -2 <= q <= 1
    ensures WrapQuarterTurn(WrapQuarterTurn(WrapQuarterTurn(WrapQuarterTurn(q)))) == q
  {
    WrapStepsInsideHalfOpenRange(q);
    WrapStepsInsideHalfOpenRange(WrapQuarterTurn(q));
    WrapStepsInsideHalfOpenRange(WrapQuarterTurn(WrapQuarterTurn(q)));
    WrapStepsInsideHalfOpenRange(WrapQuarterTurn(WrapQuarterTurn(WrapQuarterTurn(q))));
  }

  /** The rotation array of an entry, when it has one. */
  predicate HasRotation(e: Entry) {
    "rotation" in e && e["rotation"].Euler?
  }
}

=== FILE: types.dfy ===
/** Shapes shared by every part of the room designer: positions, the
    furniture record of the app context and the side-panel menu state. */
module Types {

  /** A position `[x, y, z]`; coordinates are JavaScript numbers, modelled
      as exact reals. */
  datatype Vec3 = Vec3(x: real, y: real, z: real)

  /** The side panel is either slid in ("open") or slid out ("closed"). The
      source stores the two words as strings and never writes any other. */
  datatype MenuState = Open | Closed

  /** One piece of furniture as the app context keeps it. `rotation` is in
      quarter turns: the value `q` stands for `q * pi / 2` radians, the only
      angles the rotate commands ever produce from the seed value 0. `kind`
      is the source's `type` field. */
  datatype FurnitureItem = FurnitureItem(
    id: string,
    name: string,
    color: string,
    size: string,
    kind: string,
    position: Vec3,
    rotation: int,
    originalSize: real,
    isEditVisible: bool,
    nickname: string,
    fileName: string
  )

  /** Every item of the list carries its own id: no id appears twice. */
  predicate UniqueIds(items: seq<FurnitureItem>) {
    forall i, j :: 0 <= i < j < |items| ==> items[i].id != items[j].id
  }

  /** `findIndex` by id: the index of the first item carrying `id`, or -1. */
  function FindIndex(items: seq<FurnitureItem>, id: string): (k: int)
    ensures -1 <= k < |items|
    ensures k == -1 <==> forall i :: 0 <= i < |items| ==> items[i].id != id
    ensures k >= 0 ==> items[k].id == id && forall j :: 0 <= j < k ==> items[j].id != id
  {
    if |items| == 0 then -1
    else if items[0].id == id then 0
    else
      var k := FindIndex(items[1..], id);
      if k == -1 then -1 else k + 1
  }

  /** With unique ids, the item at index `i` is the first to carry its own id. */
  lemma FindIndexOfUniqueId(items: seq<FurnitureItem>, i: int)
    requires UniqueIds(items) && 0 <= i < |items|
    ensures FindIndex(items, items[i].id) == i
  {
  }

  /** `a` is `b` with some elements left out and the rest in the same order. */
  predicate IsSubsequence<T(==)>(a: seq<T>, b: seq<T>)
    decreases |b|
  {
    if |a| == 0 then true
    else if |b| == 0 then false
    else if a[0] == b[0] then IsSubsequence(a[1..], b[1..])
    else IsSubsequence(a, b[1..])
  }

  /** A subsequence of the tail is a subsequence of the whole, and keeps
      being one with the head put back in front. */
  lemma {:induction false} SubsequenceOfTail<T>(a: seq<T>, b: seq<T>)
    requires |b| > 0 && IsSubsequence(a, b[1..])
    ensures IsSubsequence(a, b)
    ensures IsSubsequence([b[0]] + a, b)
    decreases |b|, 0
  {
    assert ([b[0]] + a)[1..] == a;
    if |a| > 0 && a[0] == b[0] {
      SubsequenceDropHead(a, b[1..]);
    }
  }

  /** Dropping the head of a subsequence leaves a subsequence. */
  lemma {:induction false} SubsequenceDropHead<T>(a: seq<T>, b: seq<T>)
    requires |a| > 0 && IsSubsequence(a, b)
    ensures IsSubsequence(a[1..], b)
    decreases |b|, 1
  {
    if a[0] == b[0] {
      SubsequenceOfTail(a[1..], b);
    } else {
      SubsequenceDropHead(a, b[1..]);
      SubsequenceOfTail(a[1..], b);
    }
  }
}

=== FILE: wrappers.dfy ===
/** The optional value used wherever the source reads a key that may be
    missing (`undefined`) or a lookup that may fail. */
module Wrappers {

  datatype Option<+T> = None | Some(value: T) {

    /** The wrapped value, or `default` when there is none. */
    function GetOr(default: T): T {
      match this
      case Some(v) => v
      case None => default
    }
  }
}
